=== FILE: README.md ===
# Deferred-mutation entity runtime, modelled in Dafny

This project models the entity/component runtime of a small three.js scene:
game objects that own ordered lists of components, a `GameObjectManager`
that owns all game objects through one `SafeArray`, and the `SafeArray`
itself, a container whose `add`/`remove` requests are queued and applied
only at fixed points of its `forEach` pass. It also models the small
per-frame state rules around it: the delta-time clamp of the render loop,
the `Player` Idle/Run edge trigger and off-screen countdown, and the action
bookkeeping of `SkinInstance.setAnimation`.

The runtime exists twice in the source, inline in `game.js` and exported
from `GameClasses.js` (lines 2-90 there are the same code as game.js:98-186).
One model covers both; rows below cite whichever copy the property was read
from. The two `Player` variants differ and are modelled separately.

Files:

- `seqs.dfy` — `Options` (the `undefined` result) and `Seqs`: subsequences,
  filtering by a set (`Without`), `indexOf` and `removeArrayElement`.
- `safe_array.dfy` — `SafeArrays`: the container as a value
  `SafeArray(committed, addQueue, removeQueue)`. The `forEach` callback is a
  pure visitor returning the adds and removes it requests, so `ForEach` is a
  pure function from (state, visitor) to (new state, visited sequence);
  `RunForEach` and `RunWalk` are the same pass written as the source's
  steps and index loop, and are proved equal to it.
- `game_object.dfy` — `GameObjects`: components as (identity, class tag,
  owner), `addComponent`, `removeComponent`, `getComponent` (with
  `instanceof` as "same tag, or the `Component` base tag") and the live
  `for...of` of `update()`.
- `game_object_manager.dfy` — `GameObjectManagers`: create, remove and
  update over a `SafeArray` of object identities.
- `skin_instance.dfy` — `Skins`: `setAnimation` over an abstract mixer.
- `player.dfy` — `Players`: key deltas, the Idle/Run edge trigger, the
  off-screen countdown.
- `frame_clock.dfy` — `FrameClock`: the clamped frame step.

Time is `real`. Key states, frustum containment, the position after the
frame's movement, the model's clip table and the mixer's `clipAction` are
parameters.

## Behaviour of the code worth knowing

The model follows the code in each case below, and a lemma shows the
behaviour.

- The point of `SafeArray` suggests that a removal requested during a pass
  should win over an add requested in the same pass. In the code the
  removal set is cleared at the end of the pass while the add stays queued.
  So the element is committed and visited on the next pass
  (`SafeArrays.AddThenRemoveInOnePassSurvives`).
- `GameObject.update` has no such protection. It walks the live component
  list with `for...of`. A component that removes itself shifts the list
  under the iterator, and the next sibling is skipped
  (`GameObjects.SelfRemovalSkipsNextSibling`, `GameObjects.SelfRemovalStep`).
- Nothing in `add` stops an item from being added twice, so the committed
  sequence can hold duplicates. The model allows them, and proves that a
  pass introduces none when there were none (`SafeArrays.ForEachKeepsNoDup`).
- Removals requested during a pass are applied at its end, so the committed
  sequence after `update()` reflects them. Adds requested during the pass
  are not committed until the next pass (`SafeArrays.ForEachDropsRemoved`,
  `SafeArrays.ForEachDefersAdds`).
- `isEmpty` returns true when something is committed or queued for
  addition. The name says the opposite, and pending removals are ignored.
  It is modelled literally (`SafeArrays.IsEmpty`).
- GameClasses.js imports only `three` (line 1). Several names it uses are
  neither defined nor imported there:
  - `removeArrayElement` (line 15);
  - `SkeletonUtils` (line 96);
  - `models` (line 123);
  - `globals` (line 132);
  - `inputManager` (line 134);
  - `kForward` (line 137).

  As written, `removeComponent` in that copy raises a `ReferenceError`. So
  does its `Player.update`, at line 132, before the off-screen code is
  reached. The model uses the helper defined at game.js:91-96 for both
  copies. `Players.OffscreenStep` models what lines 139-147 evidently
  intend, with those names bound as in game.js.

## Model

| member | source | states |
|---|---|---|
| Seqs.Without | game.js:165 | the filtered array keeps, in their original order, every copy of each element not in the removal set and no copy of any element in it (membership, multiplicity and order) |
| Seqs.IndexOf | game.js:92 | returns -1 exactly when the element is absent; otherwise the position holds the element and no earlier position does |
| Seqs.RemoveArrayElement | game.js:91-96 | an absent element leaves the array unchanged; otherwise exactly the first occurrence is spliced out, one copy leaves the multiset, and the rest keep their relative order |
| Seqs.RemoveArrayElementFromNoDup | game.js:91-96 | in a duplicate-free array the removed element is gone entirely and no duplicate appears |
| SafeArrays.Empty | game.js:132-136 | a new container has an empty committed sequence, an empty add queue and an empty removal set |
| SafeArrays.IsEmpty | game.js:137-139 | the getter is true exactly when something is committed or queued for addition (inverted name) |
| SafeArrays.IsEmptyIsInverted | game.js:137-145 | false on a new container, true right after an add, unchanged by a remove |
| SafeArrays.IsEmptyIgnoresPendingRemovals | game.js:137-145 | true even when every element is queued for removal and the container is logically empty |
| SafeArrays.Add | game.js:140-142 | the element is appended to the add queue; the committed sequence and the removal set are untouched |
| SafeArrays.Remove | game.js:143-145 | the element joins the removal set and nothing else changes; the committed sequence is untouched |
| SafeArrays.AddQueued | game.js:157-162 | the queued adds are appended after the committed ones in request order, and the add queue becomes empty |
| SafeArrays.RemoveQueued | game.js:163-168 | the committed sequence loses every element of the removal set, and the set becomes empty |
| SafeArrays.Walk | game.js:149-154 | the walk's add queue is the old one followed by every visit's adds in visit order; its removal set is the old one plus every visit's removes; the visited elements are a subsequence of the walked ones |
| SafeArrays.ForEach | game.js:146-156 | after a pass the removal set is empty, the add queue holds exactly the adds requested during it, and the committed sequence is (old committed ++ old add queue) filtered by the pre-pass removals and then by the mid-pass removals; the visited elements are a subsequence of the committed ones |
| SafeArrays.RunForEach | game.js:146-156 | the steps of `forEach` run in sequence compute the same new state and visited sequence as the pure pass |
| SafeArrays.RunWalk | game.js:149-154 | the index loop over the committed sequence, skipping what is queued for removal and queueing each visit's requests, computes exactly the walk |
| SafeArrays.WalkUnfold | game.js:149-154 | one loop step: an element in the removal set is skipped; otherwise it is visited and its requests extend the queues before the rest of the walk |
| SafeArrays.WalkSkipsRemoved | game.js:150-152 | no visited element was in the removal set at the moment it was reached, whether it was queued before the walk or by an earlier visit |
| SafeArrays.WalkVisitsSurvivors | game.js:149-154 | every walked element that nobody queued for removal is visited |
| SafeArrays.WalkVisitsAll | game.js:149-154 | with no removals at all, every element is visited exactly once, in order |
| SafeArrays.WalkSplit | game.js:149-154 | walking a + b means walking a, then walking b from the queues a left behind |
| SafeArrays.WalkStepAt | game.js:149-154 | the element at index i is visited exactly when it is not in the removal set left by the walk of the elements before it |
| SafeArrays.WalkPrefix | game.js:149-154 | what was visited before index i is a prefix of the whole visited sequence |
| SafeArrays.ForEachCommitted | game.js:146-148 | the walk runs over (old committed ++ add queue) minus the pre-pass removals, and starts with both queues empty |
| SafeArrays.ForEachSkipsRemoved | game.js:146-154 | no visited element was queued for removal before the pass, and none was removed by an earlier visit of the same pass |
| SafeArrays.ForEachDefersAdds | game.js:140-149 | an element added during a pass and not already committed is not visited in that pass; it waits in the add queue and is committed at the start of the next pass |
| SafeArrays.NextPassVisitsDeferredAdd | game.js:140-162 | an element added during a pass is visited by the next pass when no visit of that pass removes it |
| SafeArrays.ForEachVisitsSurvivors | game.js:146-156 | a visited element was committed or queued for addition and not queued for removal; conversely, such an element is visited unless a visit of the pass removes it |
| SafeArrays.ForEachVisitsAllInOrder | game.js:146-156 | with no pending or requested removals, the pass visits old committed ++ add queue exactly once each, in that order, and commits exactly that |
| SafeArrays.ForEachDropsRemoved | game.js:146-168 | after a pass the removal set is empty, and an element stays committed exactly when it was committed or queued, not queued for removal before the pass, and not removed during it |
| SafeArrays.ForEachFinalArray | game.js:146-168 | the new committed sequence is (old committed ++ add queue) filtered once by all removals of the pass |
| SafeArrays.ForEachKeepsNoDup | game.js:146-168 | a pass over a duplicate-free (committed ++ add queue) leaves a duplicate-free committed sequence |
| SafeArrays.AddThenRemoveInOnePassSurvives | game.js:140-168 | an element added and removed by the same visit stays queued after the pass and is visited by the next one |
| GameObjects.NewGameObject | game.js:99-104 | a new game object carries its name and no components |
| GameObjects.AddComponent | game.js:105-109 | the earlier components are unchanged; anything the constructor attached comes next (a SkinInstance for Player and Animal); the new component of the requested class, owned by this object, is last and is returned; in a valid object it is distinct from every earlier component and the object stays valid |
| GameObjects.RemoveComponent | game.js:110-112 | an unattached component leaves the object unchanged; otherwise one copy leaves the list and the rest keep their order; in a valid object the component is no longer attached |
| GameObjects.RemoveKeepsValid | game.js:110-112 | removing a component keeps every component owned by the object with a distinct identity |
| GameObjects.FindIndex | game.js:114 | returns -1 exactly when no component is an instance of the class; otherwise the first such position |
| GameObjects.GetComponent | game.js:113-115 | nothing exactly when no attached component is an instance of the class; otherwise the first instance in attachment order |
| GameObjects.GetComponentAfterAdd | game.js:105-115 | after adding a component of a class the object had no instance of, lookup by that class returns the new component |
| GameObjects.GetBaseComponentIsFirst | game.js:113-129 | looking up the base `Component` class returns the first attached component |
| GameObjects.Update | game.js:116-120 | the updated components are attached ones, in attachment order (a subsequence of the list); the list afterwards is the old one with every removal those updates requested applied in call order, and is itself a subsequence of the old list |
| GameObjects.UpdateFromKeepsOrder | game.js:116-120 | from any position, the live loop updates components in their order from that position on, and leaves the list with the requested removals applied in call order |
| GameObjects.RemoveEachAppend | game.js:110-112 | removing one batch of components and then another is the same as removing both batches in order |
| GameObjects.RemoveEachIsSubseq | game.js:110-112 | a run of `removeComponent` calls keeps the surviving components in their order |
| GameObjects.SelfRemovalStep | game.js:116-120 | a component that removes only itself shortens the list under the iterator, so the loop goes on at the next index of the shortened list, which holds the component two places further on |
| GameObjects.UpdateInOrder | game.js:116-120 | when no component removes anything, each attached component is updated exactly once, in attachment order |
| GameObjects.SelfRemovalSkipsNextSibling | game.js:116-120 | in a list of two or more distinct components, when the first removes itself during its update it is still updated first, but the second one is never updated in that pass |
| GameObjects.NotUpdatedBehind | game.js:116-120 | after the first component is gone, the loop resumes at index 1 of the shortened list and never reaches the component that was second |
| GameObjectManagers.NewManager | GameClasses.js:76-78 | a new manager is valid and its container reports false from `isEmpty` |
| GameObjectManagers.Create | GameClasses.js:79-83 | the new object has the given name and no components; it is appended to the add queue; the committed sequence and removal set are untouched |
| GameObjectManagers.CreateKeepsValid | GameClasses.js:79-83 | the new identity is neither committed nor queued, and the manager stays valid |
| GameObjectManagers.RemoveObject | GameClasses.js:84-86 | only the removal set changes, and it becomes exactly the old set plus the object, so earlier pending removals are kept; the committed sequence and add queue are untouched, and validity is preserved |
| GameObjectManagers.Update | GameClasses.js:87-89 | after an update the removal set is empty, and every updated object was committed or queued before it and not queued for removal |
| GameObjectManagers.UpdateKeepsValid | GameClasses.js:87-89 | an update whose visits create nothing keeps the manager valid |
| GameObjectManagers.CreateRemoveThenUpdate | GameClasses.js:79-89 | A, B and C are created and B is removed before the first update: that update visits A then C, and exactly A, C stay committed |
| GameObjectManagers.CreatedDuringUpdateWaitsOnePass | GameClasses.js:79-89 | starting from a new manager with A created, an object D created during A's update (with the identity `Create` hands out next) is not updated in that pass and is queued behind A; the manager stays valid, and the next pass updates A then D |
| GameObjectManagers.CreateThreeRemoveMiddle | GameClasses.js:79-86 | creating A, B and C queues identities 0, 1, 2 in order, and removing B only marks it for removal |
| Skins.NewSkin | game.js:203 | a new skin has recorded no actions |
| Skins.DisableRecorded | game.js:207-210 | every recorded action is disabled; no action changes its time or playing state, and actions the skin never recorded are untouched |
| Skins.SetAnimation | game.js:205-217 | an unknown name crashes after the disabling loop; otherwise `name` now maps to the clip's action, which is enabled, reset to time zero and playing, the other recorded names keep their actions, and every other mixer entry is exactly as the disabling loop left it |
| Skins.SetAnimationEnablesOnlyTarget | game.js:205-217 | afterwards a recorded action is enabled exactly when it is the action now recorded for `name` |
| Skins.SetAnimationReusesAction | game.js:211-216 | under the model's deterministic `clipAction`, calling it again for the same name records the same action and restarts it at time zero; this follows from the abstraction and says nothing about the mixer's own action cache |
| Players.KeyDelta | game.js:240-243 | a key pair gives 1 or -1 when exactly one key of the pair is held, and 0 when both or neither are |
| Players.DeltaLeftRight | game.js:240-241 | the turn input is in {-1, 0, 1}, and 0 exactly when left and right agree |
| Players.DeltaUpDown | game.js:242-243 | the move input is in {-1, 0, 1}, and 0 exactly when up and down agree |
| Players.WantedAnimation | game.js:244 | "Run" exactly when the up/down input is nonzero, "Idle" otherwise |
| Players.NewPlayer | game.js:228-230 | a new player records "Idle" as its current animation; its skin has recorded only "Idle", mapped to the action of the "Idle" clip, and that action is enabled, reset to time zero and playing |
| Players.UpdateAnimation | game.js:244-249 | `setAnimation` is called exactly when the wanted animation differs from the current one; afterwards the current animation is the wanted one, and without a call nothing changes |
| Players.HeldKeysDoNotRetrigger | game.js:244-249 | keeping the same keys on the next frame never calls `setAnimation` again |
| Players.RunFramesCountsChanges | game.js:244-249 | over any run of frames `setAnimation` is called once per change of the wanted animation, and the player ends on the last frame's wanted animation |
| Players.OffscreenStep | GameClasses.js:139-147 | inside the frustum the timer resets to 0 and the position stays; outside it the timer grows by the step, and the position goes to the origin once the timer reaches 3 s |
| Players.ResetRepeatsWhileOffscreen | GameClasses.js:143-146 | once the timer is over the limit, every further off-screen frame resets the position again, because the timer is not reset |
| Players.RunOffscreenTracksTime | GameClasses.js:139-147 | over any run of frames the timer equals the time spent off screen since the last on-screen frame, and the player ends at the origin exactly when the last frame was off screen with that time at or over the limit, or the move itself landed there |
| FrameClock.Start | game.js:362 | before the first frame the previous time is 0 |
| FrameClock.Tick | game.js:365-368 | the time is the timestamp in seconds; the step is the elapsed time since the previous frame capped at 1/20 s; the previous time becomes the current one |
| FrameClock.StallIsCapped | game.js:367 | a five-second gap gives a step of exactly 1/20 s |
| FrameClock.RunNeverAhead | game.js:362-368 | with non-decreasing timestamps every step lies in [0, 1/20 s], and the steps never sum to more than the wall-clock time elapsed |

## Left out

- index.js: asset loading, the DOM progress bar and bootstrap glue. None of it holds logic of the runtime.
- three.js objects: transforms, the `parent.add(transform)` of the `GameObject` constructor, rotation and `translateOnAxis`. The Player's turn and move inputs are modelled, but the movement they drive is not: it is floating-point transform math in a foreign library.
- The `AnimationMixer` internals: `clipAction` is a parameter, a deterministic map from clip to action identity. `SkinInstance.update` (`mixer.update`), `Animal`'s `timeScale` and `SkeletonUtils.clone` are foreign calls.
- `CameraInfo`: its frustum is derived from camera matrices, and its follow copies a position. Both are matrix and transform operations in three.js. Frustum containment is a boolean input of the off-screen rule.
- `render` beyond the clamp: renderer resizing, `requestAnimationFrame`, `inputManager.update` and `renderer.render` are I/O.
- `prepModelsAndAnimations`: the clip table it builds is a parameter of `SetAnimation`.
- `playNextAction` (game.js:338-349) is never called.
- The GameClasses.js `Player` constructor's `setAnimation('Run')` and its constant forward movement. The first is an ordinary `SetAnimation` call; the second is transform math.
- A `forEach` callback that calls `forEach` on the same container again. The source does not do this, and the visitor model cannot express it.
- SafeArrays.ForEach: the visitor is a pure function of the element. A stateful callback that asks different things of two visits to the same element (possible only with duplicates) is not covered.
- Players.NewPlayer: requires the "Idle" clip, because the knight asset is assumed to carry it. Without it, `setAnimation('Idle')` in the constructor fails, which `Skins.SetAnimation` models as `Crashed`.
- Players.UpdateAnimation: requires the "Idle" and "Run" clips, because the knight asset is assumed to carry both. Without them, `setAnimation` fails inside `Player.update`, and the failure propagates out of `render`. The crash itself is modelled by `Skins.SetAnimation`.
- Players.RunFramesCountsChanges: carries the same assumption as Players.UpdateAnimation.
- GameObjects.Update: a component's update may only remove components. A component that adds components during `update()` is not modelled: the live iterator would visit them in the same pass, and termination would need an explicit bound. No component in the source does this.
- GameObjectManagers.UpdateKeepsValid: proved only for updates whose visits create no objects. Objects created during an update come from the visitor rather than from `Create`, so the model cannot show that their identities are fresh.
- FrameClock.Tick: does not model IEEE-754 rounding of `now * 0.001`. It also does not model a NaN timestamp.

=== FILE: frame_clock.dfy ===
/**
  The per-frame time step computed by `render(now)`: the timestamp in
  milliseconds becomes seconds, and the elapsed time since the previous
  frame is capped at 1/20 s so that a stall never produces a huge step.
 */
module FrameClock {

  const MaxDeltaTime: real := 1.0 / 20.0

  /** `previous` is `then`, the previous frame's time; `time` and `deltaTime` are the globals the frame publishes. */
  datatype Clock = Clock(previous: real, time: real, deltaTime: real)

  /** Before the first frame: `let then = 0` and zeroed globals. */
  function Start(): (c: Clock)
    ensures c.previous == 0.0 && c.time == 0.0 && c.deltaTime == 0.0
  {
    Clock(0.0, 0.0, 0.0)
  }

  /** One `render(now)` call. */
  function Tick(c: Clock, nowMs: real): (r: Clock)
    ensures r.time * 1000.0 == nowMs
    ensures r.deltaTime <= MaxDeltaTime && r.deltaTime <= r.time - c.previous
    ensures r.deltaTime == MaxDeltaTime || r.deltaTime == r.time - c.previous
    ensures r.previous == r.time
  {
    var time := nowMs * 0.001;
    var delta := if time - c.previous < MaxDeltaTime then time - c.previous else MaxDeltaTime;
    Clock(time, time, delta)
  }

  /** A five-second stall yields a step of exactly 1/20 s. */
  lemma StallIsCapped(c: Clock)
    ensures Tick(c, (c.previous + 5.0) * 1000.0).deltaTime == 1.0 / 20.0
  {
  }

  /** Run `Tick` over a run of timestamps; also returns the sum of the steps taken. */
  function Run(c: Clock, nows: seq<real>): (r: (Clock, real))
    decreases |nows|
  {
    if |nows| == 0 then (c, 0.0)
    else
      var next := Tick(c, nows[0]);
      var rest := Run(next, nows[1..]);
      (rest.0, next.deltaTime + rest.1)
  }

  predicate NonDecreasing(c: Clock, nows: seq<real>) {
    (forall i :: 0 <= i < |nows| ==> c.previous <= nows[i] * 0.001)
    && (forall i, j :: 0 <= i < j < |nows| ==> nows[i] <= nows[j])
  }

  /**
    With non-decreasing timestamps every step lies in [0, 1/20] and the
    simulated time never runs ahead of the wall clock: the steps sum to at
    most the time elapsed since `then`, and to at most 1/20 per frame.
   */
  lemma {:induction false} RunNeverAhead(c: Clock, nows: seq<real>)
    requires NonDecreasing(c, nows)
    ensures var r := Run(c, nows);
      0.0 <= r.1 <= r.0.previous - c.previous
      && r.1 <= (|nows| as real) * MaxDeltaTime
      && (|nows| > 0 ==> 0.0 <= r.0.deltaTime <= MaxDeltaTime)
    decreases |nows|
  {
    if |nows| != 0 {
      var next := Tick(c, nows[0]);
      assert NonDecreasing(next, nows[1..]) by {
        forall i | 0 <= i < |nows[1..]|
          ensures next.previous <= nows[1..][i] * 0.001
        {
          assert nows[0] <= nows[i + 1];
        }
        forall i, j | 0 <= i < j < |nows[1..]|
          ensures nows[1..][i] <= nows[1..][j]
        {
          assert nows[i + 1] <= nows[j + 1];
        }
      }
      RunNeverAhead(next, nows[1..]);
    }
  }
}

=== FILE: game_object.dfy ===
/**
  Game objects and their component lists.

  A component is a tag for its class (the constructor passed to
  `addComponent`), an instance identity and the identity of the game object
  that owns it. A game object keeps its components in attachment order and
  hands out fresh component identities from a counter, standing in for
  JavaScript object identity.
 */
module GameObjects {
  import opened Options
  import opened Seqs

  type ObjectId = nat

  /** The component classes of the runtime; `BaseComponent` is the `Component` base class. */
  datatype ComponentKind = BaseComponent | SkinInstance | Player | Animal | CameraInfo

  datatype Component = Component(id: nat, kind: ComponentKind, owner: ObjectId)

  datatype GameObject = GameObject(id: ObjectId, name: string, components: seq<Component>, nextComponentId: nat)

  /** What `addComponent` hands back: the updated object and the new component. */
  datatype Added = Added(obj: GameObject, component: Component)

  /** `c instanceof T`: every class extends `Component`, and no other class extends another. */
  predicate IsA(kind: ComponentKind, t: ComponentKind) {
    t == BaseComponent || kind == t
  }

  /**
    Every component is owned by this object, carries an identity below the
    counter, and no identity is used twice.
   */
  predicate Valid(g: GameObject) {
    && (forall i :: 0 <= i < |g.components| ==> g.components[i].owner == g.id && g.components[i].id < g.nextComponentId)
    && (forall i, j :: 0 <= i < j < |g.components| ==> g.components[i].id != g.components[j].id)
  }

  /** A freshly constructed game object: a name and no components. */
  function NewGameObject(id: ObjectId, name: string): (g: GameObject)
    ensures Valid(g) && g.id == id && g.name == name && g.components == []
  {
    GameObject(id, name, [], 0)
  }

  /**
    The components a constructor attaches to the same object before the new
    component itself is pushed: `Player` and `Animal` each add a
    `SkinInstance` from inside their constructors.
   */
  function ConstructorAttaches(kind: ComponentKind): seq<ComponentKind> {
    if kind == Player || kind == Animal then [SkinInstance] else []
  }

  /**
    `addComponent(T)`: construct a new component of class `T` owned by this
    object, append it after anything its constructor attached, and return it.
   */
  function AddComponent(g: GameObject, kind: ComponentKind): (r: Added)
    ensures r.component.kind == kind && r.component.owner == g.id
    ensures r.obj.id == g.id && r.obj.name == g.name
    ensures |r.obj.components| == |g.components| + |ConstructorAttaches(kind)| + 1
    ensures r.obj.components[..|g.components|] == g.components
    ensures forall k :: 0 <= k < |ConstructorAttaches(kind)| ==>
      r.obj.components[|g.components| + k].kind == ConstructorAttaches(kind)[k]
    ensures r.obj.components[|r.obj.components| - 1] == r.component
    ensures Valid(g) ==> Valid(r.obj) && r.component !in g.components
  {
    var c := Component(g.nextComponentId, kind, g.id);
    if kind == Player || kind == Animal then
      var skin := Component(g.nextComponentId + 1, SkinInstance, g.id);
      Added(g.(components := g.components + [skin, c], nextComponentId := g.nextComponentId + 2), c)
    else
      Added(g.(components := g.components + [c], nextComponentId := g.nextComponentId + 1), c)
  }

  /** `removeComponent(c)`: `removeArrayElement` on the component list; a no-op when `c` is not attached. */
  function RemoveComponent(g: GameObject, c: Component): (r: GameObject)
    ensures r.id == g.id && r.name == g.name && r.nextComponentId == g.nextComponentId
    ensures c !in g.components ==> r == g
    ensures multiset(r.components) == multiset(g.components) - multiset{c}
    ensures IsSubseq(r.components, g.components)
    ensures Valid(g) ==> Valid(r) && c !in r.components
  {
    var r := g.(components := RemoveArrayElement(g.components, c));
    if Valid(g) then
      RemoveKeepsValid(g, c);
      r
    else r
  }

  lemma RemoveKeepsValid(g: GameObject, c: Component)
    requires Valid(g)
    ensures Valid(g.(components := RemoveArrayElement(g.components, c)))
    ensures c !in RemoveArrayElement(g.components, c)
  {
    var cs := g.components;
    ValidHasNoDup(g);
    RemoveArrayElementFromNoDup(cs, c);
    if c in cs {
      var k := IndexOf(cs, c);
      assert RemoveArrayElement(cs, c) == cs[..k] + cs[k + 1..];
      DropKeepsValid(g, k);
    }
  }

  lemma ValidHasNoDup(g: GameObject)
    requires Valid(g)
    ensures NoDup(g.components)
  {
    var cs := g.components;
    forall i, j | 0 <= i < j < |cs|
      ensures cs[i] != cs[j]
    {
      assert cs[i].id != cs[j].id;
    }
  }

  lemma DropKeepsValid(g: GameObject, k: int)
    requires Valid(g) && 0 <= k < |g.components|
    ensures Valid(g.(components := g.components[..k] + g.components[k + 1..]))
  {
    var cs := g.components;
    var r := cs[..k] + cs[k + 1..];
    DropAtIndex(cs, k, r);
    forall i | 0 <= i < |r|
      ensures r[i].owner == g.id && r[i].id < g.nextComponentId
    {
      if i < k { assert r[i] == cs[i]; } else { assert r[i] == cs[i + 1]; }
    }
    forall i, j | 0 <= i < j < |r|
      ensures r[i].id != r[j].id
    {
      var i' := if i < k then i else i + 1;
      var j' := if j < k then j else j + 1;
      assert r[i] == cs[i'] && r[j] == cs[j'] && i' < j';
    }
  }

  /** The position search behind `find(c => c instanceof T)`: the first matching position, or -1 when `find` gives `undefined`. */
  function FindIndex(cs: seq<Component>, t: ComponentKind): (i: int)
    ensures -1 <= i < |cs|
    ensures i == -1 <==> forall j :: 0 <= j < |cs| ==> !IsA(cs[j].kind, t)
    ensures 0 <= i ==> IsA(cs[i].kind, t) && forall j :: 0 <= j < i ==> !IsA(cs[j].kind, t)
    decreases |cs|
  {
    if |cs| == 0 then -1
    else if IsA(cs[0].kind, t) then 0
    else
      var j := FindIndex(cs[1..], t);
      if j < 0 then -1 else j + 1
  }

  /**
    `getComponent(T)`: the first attached component, in attachment order,
    that is an instance of `T`, or nothing when none is.
   */
  function GetComponent(g: GameObject, t: ComponentKind): (r: Option<Component>)
    ensures r.None? <==> forall j :: 0 <= j < |g.components| ==> !IsA(g.components[j].kind, t)
    ensures r.Some? ==> exists i :: (0 <= i < |g.components| && g.components[i] == r.value
      && IsA(r.value.kind, t) && forall j :: 0 <= j < i ==> !IsA(g.components[j].kind, t))
  {
    var i := FindIndex(g.components, t);
    if i < 0 then None else Some(g.components[i])
  }

  /**
    Adding a `T` to an object with no instance of `T` makes `getComponent(T)`
    return the new component, even when its constructor attached a
    `SkinInstance` in front of it.
   */
  lemma GetComponentAfterAdd(g: GameObject, kind: ComponentKind)
    requires forall j :: 0 <= j < |g.components| ==> !IsA(g.components[j].kind, kind)
    ensures GetComponent(AddComponent(g, kind).obj, kind) == Some(AddComponent(g, kind).component)
  {
    var r := AddComponent(g, kind);
    var cs := r.obj.components;
    forall j | 0 <= j < |cs| - 1
      ensures !IsA(cs[j].kind, kind)
    {
      if j < |g.components| {
        assert cs[j] == cs[..|g.components|][j];
      } else {
        assert cs[j].kind == SkinInstance;
      }
    }
    var i := FindIndex(cs, kind);
    assert i == |cs| - 1;
  }

  /** `getComponent(Component)` finds the first attached component whatever its class. */
  lemma GetBaseComponentIsFirst(g: GameObject)
    requires |g.components| > 0
    ensures GetComponent(g, BaseComponent) == Some(g.components[0])
  {
  }

  /** What one `update()` pass over the component list did: the components updated, and the list afterwards. */
  datatype Updated = Updated(updated: seq<Component>, components: seq<Component>)

  /** Apply `removeComponent` for each of `rs`, in order. */
  function RemoveEach(cs: seq<Component>, rs: seq<Component>): (r: seq<Component>)
    ensures |r| <= |cs|
    ensures forall c :: c in r ==> c in cs
    decreases |rs|
  {
    if |rs| == 0 then cs
    else
      var cs' := RemoveArrayElement(cs, rs[0]);
      SubseqLength(cs', cs);
      SubseqMembers(cs', cs);
      RemoveEach(cs', rs[1..])
  }

  /** The removals leave the surviving components in their order. */
  lemma {:induction false} RemoveEachIsSubseq(cs: seq<Component>, rs: seq<Component>)
    ensures IsSubseq(RemoveEach(cs, rs), cs)
    decreases |rs|
  {
    if |rs| == 0 {
      SubseqReflexive(cs);
    } else {
      var cs' := RemoveArrayElement(cs, rs[0]);
      RemoveEachIsSubseq(cs', rs[1..]);
      SubseqTrans(RemoveEach(cs', rs[1..]), cs', cs);
    }
  }

  /** Removing `a` and then `b` is removing `a + b`. */
  lemma {:induction false} RemoveEachAppend(cs: seq<Component>, a: seq<Component>, b: seq<Component>)
    ensures RemoveEach(RemoveEach(cs, a), b) == RemoveEach(cs, a + b)
    decreases |a|
  {
    if |a| == 0 {
      assert a + b == b;
    } else {
      assert (a + b)[0] == a[0] && (a + b)[1..] == a[1..] + b;
      RemoveEachAppend(RemoveArrayElement(cs, a[0]), a[1..], b);
    }
  }

  /** Every `removeComponent` call made by the updates of `us`, in call order. */
  function Removals(removals: Component -> seq<Component>, us: seq<Component>): seq<Component>
    decreases |us|
  {
    if |us| == 0 then [] else removals(us[0]) + Removals(removals, us[1..])
  }

  /**
    The `for...of` loop of `update()` from position `i`: JavaScript's array
    iterator re-reads the LIVE list and its length at every step. Each
    component's update may call `removeComponent`; `removals(c)` lists the
    components that `c`'s update removes, in call order.
   */
  function UpdateFrom(cs: seq<Component>, i: nat, removals: Component -> seq<Component>): (u: Updated)
    ensures forall c :: c in u.updated ==> c in cs
    ensures i >= |cs| ==> u.updated == []
    ensures i < |cs| ==> |u.updated| <= |cs| - i
    decreases |cs| - i
  {
    if i >= |cs| then Updated([], cs)
    else
      var c := cs[i];
      var rest := UpdateFrom(RemoveEach(cs, removals(c)), i + 1, removals);
      Updated([c] + rest.updated, rest.components)
  }

  /**
    `update()`: update each attached component over the live list. The
    components updated are attached ones, in attachment order (possibly with
    gaps), and the list afterwards is the old one with every removal those
    updates asked for applied in call order.
   */
  function Update(g: GameObject, removals: Component -> seq<Component>): (u: Updated)
    ensures forall c :: c in u.updated ==> c in g.components
    ensures |u.updated| <= |g.components|
    ensures IsSubseq(u.updated, g.components)
    ensures u.components == RemoveEach(g.components, Removals(removals, u.updated))
    ensures IsSubseq(u.components, g.components)
  {
    var u := UpdateFrom(g.components, 0, removals);
    UpdateFromKeepsOrder(g.components, 0, removals);
    assert g.components[0..] == g.components;
    RemoveEachIsSubseq(g.components, Removals(removals, u.updated));
    u
  }

  /**
    From position `i`, the live iteration updates components in the order
    they had at position `i` onwards, and the list it leaves is the list it
    started from with the requested removals applied in call order.
   */
  lemma {:induction false} UpdateFromKeepsOrder(cs: seq<Component>, i: nat, removals: Component -> seq<Component>)
    requires i <= |cs|
    ensures var u := UpdateFrom(cs, i, removals);
      IsSubseq(u.updated, cs[i..]) && u.components == RemoveEach(cs, Removals(removals, u.updated))
    decreases |cs| - i
  {
    var u := UpdateFrom(cs, i, removals);
    if i == |cs| {
      assert u == Updated([], cs);
    } else {
      var c := cs[i];
      var cs' := RemoveEach(cs, removals(c));
      var rest := UpdateFrom(cs', i + 1, removals);
      assert u.updated == [c] + rest.updated && u.components == rest.components;
      if i + 1 <= |cs'| {
        UpdateFromKeepsOrder(cs', i + 1, removals);
        RemoveEachIsSubseq(cs, removals(c));
        SubseqDrop(cs', cs, i + 1);
        SubseqTrans(rest.updated, cs'[i + 1..], cs[i + 1..]);
      } else {
        assert rest == Updated([], cs');
      }
      assert cs[i..][0] == c && cs[i..][1..] == cs[i + 1..];
      assert u.updated[0] == c && u.updated[1..] == rest.updated;
      assert Removals(removals, u.updated) == removals(c) + Removals(removals, rest.updated);
      RemoveEachAppend(cs, removals(c), Removals(removals, rest.updated));
    }
  }

  /** When no component removes anything, every component is updated exactly once, in attachment order. */
  lemma {:induction false} UpdateFromInOrder(cs: seq<Component>, i: nat, removals: Component -> seq<Component>)
    requires i <= |cs|
    requires forall j :: 0 <= j < |cs| ==> removals(cs[j]) == []
    ensures UpdateFrom(cs, i, removals) == Updated(cs[i..], cs)
    decreases |cs| - i
  {
    if i < |cs| {
      UpdateFromInOrder(cs, i + 1, removals);
      assert cs[i..] == [cs[i]] + cs[i + 1..];
    }
  }

  lemma UpdateInOrder(g: GameObject, removals: Component -> seq<Component>)
    requires forall j :: 0 <= j < |g.components| ==> removals(g.components[j]) == []
    ensures Update(g, removals) == Updated(g.components, g.components)
  {
    UpdateFromInOrder(g.components, 0, removals);
  }

  /**
    The live iteration is not protected against removal: when the first
    component removes itself during its update, the second one is never
    updated in that pass.
   */
  lemma SelfRemovalSkipsNextSibling(g: GameObject, removals: Component -> seq<Component>)
    requires |g.components| >= 2 && NoDup(g.components)
    requires removals(g.components[0]) == [g.components[0]]
    ensures var u := Update(g, removals);
      |u.updated| > 0 && u.updated[0] == g.components[0] && g.components[1] !in u.updated
  {
    var cs := g.components;
    assert cs[..0] + cs[1..] == cs[1..];
    SelfRemovalStep(cs, 0, removals);
    NotUpdatedBehind(cs, removals);
  }

  /** In a duplicate-free list, the loop from index 1 of `cs[1..]` never reaches `cs[1]`. */
  lemma NotUpdatedBehind(cs: seq<Component>, removals: Component -> seq<Component>)
    requires |cs| >= 2 && NoDup(cs)
    ensures cs[1] !in UpdateFrom(cs[1..], 1, removals).updated && cs[0] != cs[1]
  {
    var t := cs[1..];
    UpdateFromKeepsOrder(t, 1, removals);
    SubseqMembers(UpdateFrom(t, 1, removals).updated, t[1..]);
    forall k | 0 <= k < |t[1..]|
      ensures t[1..][k] != cs[1]
    {
      assert t[1..][k] == cs[k + 2];
    }
  }

  /** One step of the live loop, at position `i`. */
  lemma UpdateFromStep(cs: seq<Component>, i: nat, removals: Component -> seq<Component>)
    requires i < |cs|
    ensures var rest := UpdateFrom(RemoveEach(cs, removals(cs[i])), i + 1, removals);
      UpdateFrom(cs, i, removals) == Updated([cs[i]] + rest.updated, rest.components)
  {
  }

  /**
    A component at position `i` that removes only itself shifts the rest of
    the list left under the iterator: the loop goes on at position `i + 1`
    of the shortened list, which holds the component that was at `i + 2`.
   */
  lemma SelfRemovalStep(cs: seq<Component>, i: nat, removals: Component -> seq<Component>)
    requires i < |cs| && cs[i] !in cs[..i]
    requires removals(cs[i]) == [cs[i]]
    ensures var rest := UpdateFrom(cs[..i] + cs[i + 1..], i + 1, removals);
      UpdateFrom(cs, i, removals) == Updated([cs[i]] + rest.updated, rest.components)
  {
    var r := RemoveArrayElement(cs, cs[i]);
    assert r == cs[..i] + cs[i + 1..];
    assert [cs[i]][1..] == [];
    assert RemoveEach(cs, [cs[i]]) == RemoveEach(r, []);
    UpdateFromStep(cs, i, removals);
  }
}

=== FILE: game_object_manager.dfy ===
/**
  `GameObjectManager`: a thin layer over one `SafeArray` of game objects.
  Objects are tracked by identity; the counter `nextId` stands in for
  allocating a fresh JavaScript object.
 */
module GameObjectManagers {
  import opened Seqs
  import opened SafeArrays
  import opened GameObjects

  datatype Manager = Manager(gameObjects: SafeArray<ObjectId>, nextId: ObjectId)

  datatype Created = Created(manager: Manager, obj: GameObject)

  /** Every tracked identity was handed out by this manager, and none is committed or queued twice. */
  predicate Valid(m: Manager) {
    && (forall x :: x in m.gameObjects.committed ==> x < m.nextId)
    && (forall x :: x in m.gameObjects.addQueue ==> x < m.nextId)
    && NoDup(m.gameObjects.committed + m.gameObjects.addQueue)
  }

  function NewManager(): (m: Manager)
    ensures Valid(m) && !IsEmpty(m.gameObjects)
  {
    Manager(Empty(), 0)
  }

  /**
    `createGameObject(parent, name)`: a new, componentless object, queued for
    addition and returned at once; the committed sequence is untouched.
   */
  function Create(m: Manager, name: string): (r: Created)
    ensures r.obj.name == name && r.obj.components == [] && GameObjects.Valid(r.obj)
    ensures r.manager.gameObjects.committed == m.gameObjects.committed
    ensures r.manager.gameObjects.removeQueue == m.gameObjects.removeQueue
    ensures r.manager.gameObjects.addQueue == m.gameObjects.addQueue + [r.obj.id]
    ensures r.obj.id == m.nextId && r.manager.nextId == m.nextId + 1
  {
    var obj := NewGameObject(m.nextId, name);
    Created(Manager(Add(m.gameObjects, obj.id), m.nextId + 1), obj)
  }

  /** Creating an object keeps a manager valid: the new identity is fresh, so it is neither committed nor queued. */
  lemma CreateKeepsValid(m: Manager, name: string)
    requires Valid(m)
    ensures var r := Create(m, name);
      Valid(r.manager) && r.obj.id !in m.gameObjects.committed && r.obj.id !in m.gameObjects.addQueue
  {
    var r := Create(m, name);
    CreateKeepsNoDup(m.gameObjects.committed + m.gameObjects.addQueue, m.nextId);
    assert m.gameObjects.committed + (m.gameObjects.addQueue + [m.nextId])
      == m.gameObjects.committed + m.gameObjects.addQueue + [m.nextId];
  }

  lemma CreateKeepsNoDup(xs: seq<ObjectId>, newId: ObjectId)
    requires NoDup(xs) && forall x :: x in xs ==> x < newId
    ensures NoDup(xs + [newId])
  {
    var ys := xs + [newId];
    forall i, j | 0 <= i < j < |ys|
      ensures ys[i] != ys[j]
    {
      if j < |xs| {
        assert ys[i] == xs[i] && ys[j] == xs[j];
      } else {
        assert ys[i] == xs[i];
        assert xs[i] in xs;
      }
    }
  }

  /** `removeGameObject(obj)`: only queues the removal; the committed sequence is untouched. */
  function RemoveObject(m: Manager, id: ObjectId): (r: Manager)
    ensures r.gameObjects.committed == m.gameObjects.committed
    ensures r.gameObjects.addQueue == m.gameObjects.addQueue
    ensures r.gameObjects.removeQueue == m.gameObjects.removeQueue + {id} && r.nextId == m.nextId
    ensures Valid(m) ==> Valid(r)
  {
    Manager(Remove(m.gameObjects, id), m.nextId)
  }

  /**
    `update()`: one `forEach` pass over the objects; `visit` stands for each
    object's `update()` and the create/remove requests it makes.
   */
  function Update(m: Manager, visit: ObjectId -> Requests<ObjectId>): (r: PassResult<ObjectId>)
    ensures r.state.removeQueue == {}
    ensures forall x :: x in r.visited ==>
      ((x in m.gameObjects.committed || x in m.gameObjects.addQueue) && x !in m.gameObjects.removeQueue)
  {
    var r := ForEach(m.gameObjects, visit);
    SubseqMembers(r.visited, Without(m.gameObjects.committed + m.gameObjects.addQueue, m.gameObjects.removeQueue));
    r
  }

  /**
    A pass over a valid manager whose visits request nothing keeps it valid:
    the committed sequence loses exactly the removed objects.
   */
  lemma UpdateKeepsValid(m: Manager, visit: ObjectId -> Requests<ObjectId>)
    requires Valid(m)
    requires forall x :: visit(x).adds == []
    ensures var r := Update(m, visit); Valid(Manager(r.state, m.nextId))
  {
    var r := Update(m, visit);
    NoAddsQueued(visit, r.visited);
    ForEachKeepsNoDup(m.gameObjects, visit);
    assert r.state.committed + r.state.addQueue == r.state.committed;
  }

  lemma {:induction false} NoAddsQueued(visit: ObjectId -> Requests<ObjectId>, vs: seq<ObjectId>)
    requires forall x :: visit(x).adds == []
    ensures AddsOf(visit, vs) == []
    decreases |vs|
  {
    if |vs| != 0 {
      NoAddsQueued(visit, vs[1..]);
    }
  }

  /**
    Objects A, B and C are created in that order and B is removed before the
    first update: that update visits A and C, in order, and leaves exactly
    A and C committed.
   */
  lemma CreateRemoveThenUpdate(visit: ObjectId -> Requests<ObjectId>)
    requires forall x :: visit(x) == Requests([], {})
    ensures var c1 := Create(NewManager(), "A");
      var c2 := Create(c1.manager, "B");
      var c3 := Create(c2.manager, "C");
      var m := RemoveObject(c3.manager, c2.obj.id);
      var r := Update(m, visit);
      r.visited == [c1.obj.id, c3.obj.id] && r.state.committed == [c1.obj.id, c3.obj.id]
  {
    CreateThreeRemoveMiddle();
    var c1 := Create(NewManager(), "A");
    var c2 := Create(c1.manager, "B");
    var c3 := Create(c2.manager, "C");
    var m := RemoveObject(c3.manager, c2.obj.id);
    ThreeMinusMiddle(m.gameObjects, visit);
  }

  /** The manager state after creating A, B and C and removing B, before any update. */
  lemma CreateThreeRemoveMiddle()
    ensures var c1 := Create(NewManager(), "A");
      var c2 := Create(c1.manager, "B");
      var c3 := Create(c2.manager, "C");
      var m := RemoveObject(c3.manager, c2.obj.id);
      c1.obj.id == 0 && c2.obj.id == 1 && c3.obj.id == 2 && m.gameObjects == SafeArray([], [0, 1, 2], {1})
  {
    var c1 := Create(NewManager(), "A");
    assert c1.manager.gameObjects == SafeArray([], [0], {}) && c1.manager.nextId == 1;
    var c2 := Create(c1.manager, "B");
    assert c2.manager.gameObjects == SafeArray([], [0, 1], {}) && c2.manager.nextId == 2;
    var c3 := Create(c2.manager, "C");
    assert c3.manager.gameObjects.addQueue == [0, 1, 2];
  }

  lemma ThreeMinusMiddle(s: SafeArray<ObjectId>, visit: ObjectId -> Requests<ObjectId>)
    requires s == SafeArray([], [0, 1, 2], {1})
    requires forall x :: visit(x) == Requests([], {})
    ensures ForEach(s, visit).visited == [0, 2] && ForEach(s, visit).state.committed == [0, 2]
  {
    assert AddQueued(s).committed == [0, 1, 2];
    assert [0, 1, 2][1..] == [1, 2] && [1, 2][1..] == [2] && [2][1..] == [];
    assert Without([2], {1}) == [2];
    assert Without([1, 2], {1}) == [2];
    assert Without([0, 1, 2], {1}) == [0, 2];
    assert RemoveQueued(AddQueued(s)).committed == [0, 2];
    assert [0, 2][1..] == [2];
    assert Walk([0, 2], visit, [], {}) == Walked([0, 2], [], {});
    WithoutNothing([0, 2]);
  }

  /**
    An object D created during the update of A is not visited in that
    update, and is visited after A by the next one. A is created on a new
    manager; D's identity is the one `Create` hands out next, and the manager
    after the first update is valid.
   */
  lemma CreatedDuringUpdateWaitsOnePass(visit: ObjectId -> Requests<ObjectId>, next: ObjectId -> Requests<ObjectId>)
    requires var a := Create(NewManager(), "A");
      var d := Create(a.manager, "D");
      visit(a.obj.id) == Requests([d.obj.id], {})
    requires forall x :: next(x) == Requests([], {})
    ensures var a := Create(NewManager(), "A");
      var d := Create(a.manager, "D");
      var r := Update(a.manager, visit);
      && r.visited == [a.obj.id] && d.obj.id !in r.visited
      && r.state == SafeArray([a.obj.id], [d.obj.id], {})
      && Valid(Manager(r.state, d.manager.nextId))
      && Update(Manager(r.state, d.manager.nextId), next).visited == [a.obj.id, d.obj.id]
  {
    CreateTwo();
    var a := Create(NewManager(), "A");
    OneCreatedObjectUpdate(a.manager.gameObjects, visit);
    SecondPassVisitsBoth(next);
    ValidAfterFirstPass();
  }

  /** Creating A on a new manager queues identity 0; `Create` would hand out 1 next. */
  lemma CreateTwo()
    ensures var a := Create(NewManager(), "A");
      var d := Create(a.manager, "D");
      a.obj.id == 0 && d.obj.id == 1 && d.manager.nextId == 2 && a.manager.gameObjects == SafeArray([], [0], {})
  {
  }

  lemma SecondPassVisitsBoth(next: ObjectId -> Requests<ObjectId>)
    requires forall x :: next(x) == Requests([], {})
    ensures ForEach(SafeArray([0], [1], {}), next).visited == [0, 1]
  {
    var s := SafeArray([0], [1], {});
    assert s.committed + s.addQueue == [0, 1];
    ForEachVisitsAllInOrder(s, next);
  }

  lemma ValidAfterFirstPass()
    ensures Valid(Manager(SafeArray([0], [1], {}), 2))
  {
    assert [0] + [1] == [0, 1];
  }

  /** The first pass over a manager holding only the queued object 0, whose update creates object 1. */
  lemma OneCreatedObjectUpdate(s: SafeArray<ObjectId>, visit: ObjectId -> Requests<ObjectId>)
    requires s == SafeArray([], [0], {}) && visit(0) == Requests([1], {})
    ensures ForEach(s, visit).visited == [0] && ForEach(s, visit).state == SafeArray([0], [1], {})
  {
    assert AddQueued(s).committed == [0];
    WithoutNothing([0]);
    assert RemoveQueued(AddQueued(s)) == SafeArray([0], [], {});
    assert [0][1..] == [];
    assert Walk([0], visit, [], {}) == Walked([0], [1], {});
  }
}

=== FILE: player.dfy ===
/**
  The per-frame state rules of the `Player` component.

  Two variants exist. The one in game.js reads the four direction keys and
  switches the skin between the "Idle" and "Run" animations only when the
  wanted animation changes (edge-triggered). The one in GameClasses.js keeps
  an off-screen countdown and sends the player back to the origin once it
  has been outside the camera frustum for too long. Key states and frustum
  containment are plain inputs; movement itself is not modelled, so the
  position after this frame's move is an input too.
 */
module Players {
  import opened Skins

  // ---------------------------------------------------------------------
  // game.js: input deltas and the Idle/Run edge trigger
  // ---------------------------------------------------------------------

  /** The held state of the four logical direction keys this frame. */
  datatype Keys = Keys(left: bool, right: bool, up: bool, down: bool)

  /** `(a ? 1 : 0) + (b ? -1 : 0)`. */
  function KeyDelta(positive: bool, negative: bool): (d: int)
    ensures -1 <= d <= 1
    ensures d == 1 <==> positive && !negative
    ensures d == -1 <==> negative && !positive
    ensures d == 0 <==> positive == negative
  {
    (if positive then 1 else 0) + (if negative then -1 else 0)
  }

  function DeltaLeftRight(k: Keys): (d: int)
    ensures -1 <= d <= 1 && (d == 0 <==> k.left == k.right)
  {
    KeyDelta(k.left, k.right)
  }

  function DeltaUpDown(k: Keys): (d: int)
    ensures -1 <= d <= 1 && (d == 0 <==> k.up == k.down)
  {
    KeyDelta(k.up, k.down)
  }

  /** The animation the keys ask for: run while forward/backward input is nonzero. */
  function WantedAnimation(k: Keys): (a: AnimName)
    ensures a == "Run" <==> k.up != k.down
    ensures a == "Idle" <==> k.up == k.down
  {
    if DeltaUpDown(k) != 0 then "Run" else "Idle"
  }

  datatype PlayerState = PlayerState(currentAnimation: AnimName, skin: Skin)

  /** One frame's result: the new state and whether `setAnimation` was called. */
  datatype Step = Step(player: PlayerState, switched: bool)

  /** The constructor in game.js: start the skin on "Idle" and remember it. */
  function NewPlayer(animations: map<AnimName, ClipId>, clipAction: ClipId -> ActionId): (p: PlayerState)
    requires "Idle" in animations
    ensures p.currentAnimation == "Idle"
    ensures p.skin.actions.Keys == {"Idle"} && Valid(p.skin)
    ensures p.skin.actions["Idle"] == clipAction(animations["Idle"])
    ensures p.skin.mixer[clipAction(animations["Idle"])] == ActionState(true, 0.0, true)
  {
    PlayerState("Idle", SetAnimation(NewSkin(), "Idle", animations, clipAction).skin)
  }

  /**
    The animation part of `Player.update` (game.js): call `setAnimation`
    only when the wanted animation differs from the current one, then
    remember it. The clips "Idle" and "Run" must exist in the model.
   */
  function UpdateAnimation(p: PlayerState, k: Keys, animations: map<AnimName, ClipId>, clipAction: ClipId -> ActionId): (r: Step)
    requires "Idle" in animations && "Run" in animations
    ensures r.player.currentAnimation == WantedAnimation(k)
    ensures r.switched <==> p.currentAnimation != WantedAnimation(k)
    ensures !r.switched ==> r.player == p
    ensures r.switched ==> r.player.skin == SetAnimation(p.skin, WantedAnimation(k), animations, clipAction).skin
  {
    var future := WantedAnimation(k);
    if future != p.currentAnimation then
      Step(PlayerState(future, SetAnimation(p.skin, future, animations, clipAction).skin), true)
    else
      Step(p, false)
  }

  /** Holding the same keys on the next frame never re-triggers `setAnimation`. */
  lemma HeldKeysDoNotRetrigger(p: PlayerState, k: Keys, animations: map<AnimName, ClipId>, clipAction: ClipId -> ActionId)
    requires "Idle" in animations && "Run" in animations
    ensures var once := UpdateAnimation(p, k, animations, clipAction).player;
      !UpdateAnimation(once, k, animations, clipAction).switched
  {
  }

  /** Run the animation rule over a run of frames; also counts the `setAnimation` calls. */
  function RunFrames(p: PlayerState, frames: seq<Keys>, animations: map<AnimName, ClipId>, clipAction: ClipId -> ActionId): (r: (PlayerState, nat))
    requires "Idle" in animations && "Run" in animations
    decreases |frames|
  {
    if |frames| == 0 then (p, 0)
    else
      var step := UpdateAnimation(p, frames[0], animations, clipAction);
      var rest := RunFrames(step.player, frames[1..], animations, clipAction);
      (rest.0, rest.1 + (if step.switched then 1 else 0))
  }

  /** The number of frames whose wanted animation differs from the previous frame's (the first compared with `start`). */
  function Changes(start: AnimName, frames: seq<Keys>): nat
    decreases |frames|
  {
    if |frames| == 0 then 0
    else
      var last := frames[|frames| - 1];
      var prev := if |frames| == 1 then start else WantedAnimation(frames[|frames| - 2]);
      Changes(start, frames[..|frames| - 1]) + (if WantedAnimation(last) != prev then 1 else 0)
  }

  /**
    Edge triggering over any run of frames: `setAnimation` is called exactly
    once per change of the wanted animation, and the player ends on the
    wanted animation of the last frame.
   */
  lemma {:induction false} RunFramesCountsChanges(p: PlayerState, frames: seq<Keys>, animations: map<AnimName, ClipId>, clipAction: ClipId -> ActionId)
    requires "Idle" in animations && "Run" in animations
    ensures var r := RunFrames(p, frames, animations, clipAction);
      r.1 == Changes(p.currentAnimation, frames)
      && (|frames| > 0 ==> r.0.currentAnimation == WantedAnimation(frames[|frames| - 1]))
      && (|frames| == 0 ==> r.0 == p)
    decreases |frames|
  {
    if |frames| != 0 {
      var step := UpdateAnimation(p, frames[0], animations, clipAction);
      RunFramesCountsChanges(step.player, frames[1..], animations, clipAction);
      ChangesFirst(p.currentAnimation, frames);
      if |frames| > 1 {
        assert frames[1..][|frames[1..]| - 1] == frames[|frames| - 1];
      }
    }
  }

  /** Peeling the first frame off `Changes`. */
  lemma {:induction false} ChangesFirst(start: AnimName, frames: seq<Keys>)
    requires |frames| > 0
    ensures Changes(start, frames)
      == (if WantedAnimation(frames[0]) != start then 1 else 0) + Changes(WantedAnimation(frames[0]), frames[1..])
    decreases |frames|
  {
    if |frames| > 1 {
      var init := frames[..|frames| - 1];
      ChangesFirst(start, init);
      assert init[0] == frames[0];
      assert init[1..] == frames[1..][..|frames[1..]| - 1];
      var t := frames[1..];
      assert t[|t| - 1] == frames[|frames| - 1];
      if |frames| > 2 {
        assert t[|t| - 2] == frames[|frames| - 2];
      }
    }
  }

  // ---------------------------------------------------------------------
  // GameClasses.js: the off-screen countdown
  // ---------------------------------------------------------------------

  /** `this.maxTimeOffScreen = 3` (seconds). */
  const MaxTimeOffScreen: real := 3.0

  datatype Vec3 = Vec3(x: real, y: real, z: real)

  const Origin: Vec3 := Vec3(0.0, 0.0, 0.0)

  datatype Roamer = Roamer(offscreenTimer: real, position: Vec3)

  /**
    The countdown part of `Player.update` (GameClasses.js): inside the
    frustum the timer resets; outside it grows by `deltaTime`, and once it
    reaches the limit the position goes back to the origin. The timer itself
    is not reset by that, so the reset repeats on every later off-screen frame.
   */
  function OffscreenStep(position: Vec3, timer: real, contained: bool, deltaTime: real): (r: Roamer)
    ensures contained ==> r == Roamer(0.0, position)
    ensures !contained ==> r.offscreenTimer == timer + deltaTime
    ensures !contained && timer + deltaTime >= MaxTimeOffScreen ==> r.position == Origin
    ensures !contained && timer + deltaTime < MaxTimeOffScreen ==> r.position == position
  {
    if contained then Roamer(0.0, position)
    else
      var t := timer + deltaTime;
      if t >= MaxTimeOffScreen then Roamer(t, Origin) else Roamer(t, position)
  }

  /** Once over the limit, every further off-screen frame with a non-negative step resets the position again. */
  lemma ResetRepeatsWhileOffscreen(position: Vec3, timer: real, deltaTime: real)
    requires timer >= MaxTimeOffScreen && deltaTime >= 0.0
    ensures var r := OffscreenStep(position, timer, false, deltaTime);
      r.position == Origin && r.offscreenTimer >= MaxTimeOffScreen
  {
  }

  /** One frame of input: where the move put the player, whether that point is in the frustum, and the step. */
  datatype Frame = Frame(position: Vec3, contained: bool, deltaTime: real)

  /** Run the countdown frame by frame. */
  function RunOffscreen(timer: real, frames: seq<Frame>): (r: Roamer)
    requires |frames| > 0
    decreases |frames|
  {
    var s := OffscreenStep(frames[0].position, timer, frames[0].contained, frames[0].deltaTime);
    if |frames| == 1 then s else RunOffscreen(s.offscreenTimer, frames[1..])
  }

  /**
    Reference definition of the timer: the sum of the steps of the trailing
    off-screen frames (zero right after an on-screen frame), on top of the
    initial timer when no frame was on screen.
   */
  function TimeOffscreen(timer: real, frames: seq<Frame>): real
    decreases |frames|
  {
    if |frames| == 0 then timer
    else if frames[|frames| - 1].contained then 0.0
    else TimeOffscreen(timer, frames[..|frames| - 1]) + frames[|frames| - 1].deltaTime
  }

  /**
    The frame-by-frame countdown always holds the time spent off screen
    since the last on-screen frame, and the last frame's position is the
    origin exactly when that frame was off screen with that time at or above
    the limit (or the move itself landed on the origin).
   */
  lemma {:induction false} RunOffscreenTracksTime(timer: real, frames: seq<Frame>)
    requires |frames| > 0
    ensures var r := RunOffscreen(timer, frames);
      var last := frames[|frames| - 1];
      r.offscreenTimer == TimeOffscreen(timer, frames)
      && (r.position == Origin <==>
          last.position == Origin || (!last.contained && TimeOffscreen(timer, frames) >= MaxTimeOffScreen))
    decreases |frames|
  {
    var s := OffscreenStep(frames[0].position, timer, frames[0].contained, frames[0].deltaTime);
    if |frames| > 1 {
      RunOffscreenTracksTime(s.offscreenTimer, frames[1..]);
      TimeOffscreenFirst(timer, frames);
      assert frames[1..][|frames[1..]| - 1] == frames[|frames| - 1];
    }
  }

  /** Peeling the first frame off `TimeOffscreen`. */
  lemma {:induction false} TimeOffscreenFirst(timer: real, frames: seq<Frame>)
    requires |frames| > 0
    ensures TimeOffscreen(timer, frames)
      == TimeOffscreen(OffscreenStep(frames[0].position, timer, frames[0].contained, frames[0].deltaTime).offscreenTimer, frames[1..])
    decreases |frames|
  {
    if |frames| > 1 {
      var init := frames[..|frames| - 1];
      TimeOffscreenFirst(timer, init);
      assert init[0] == frames[0];
      assert init[1..] == frames[1..][..|frames[1..]| - 1];
      assert frames[1..][|frames[1..]| - 1] == frames[|frames| - 1];
    }
  }
}

=== FILE: safe_array.dfy ===
/**
  The deferred-mutation container `SafeArray`.

  A `SafeArray` holds a committed sequence, a queue of pending additions (in
  request order) and a set of pending removals. `forEach` runs a fixed
  protocol: commit the queued additions, drop the queued removals, walk the
  committed sequence skipping anything queued for removal in the meantime,
  and finally drop the removals queued during the walk.

  The callback given to `forEach` is modelled as a pure visitor that, given
  the element being visited, returns the additions and removals it requests.
  `forEach` is then a pure function from (state, visitor) to (new state,
  visited sequence).
 */
module SafeArrays {
  import opened Seqs

  datatype SafeArray<T> = SafeArray(committed: seq<T>, addQueue: seq<T>, removeQueue: set<T>)

  /** What one visit asks of the container: `add(e)` for each of `adds` (in order), `remove(e)` for each of `removes`. */
  datatype Requests<T> = Requests(adds: seq<T>, removes: set<T>)

  /** The state of a walk: the elements visited so far and the two queues. */
  datatype Walked<T> = Walked(visited: seq<T>, addQueue: seq<T>, removeQueue: set<T>)

  datatype PassResult<T> = PassResult(state: SafeArray<T>, visited: seq<T>)

  /** A freshly constructed container. */
  function Empty<T>(): (s: SafeArray<T>)
    ensures s.committed == [] && s.addQueue == [] && s.removeQueue == {}
  {
    SafeArray([], [], {})
  }

  /**
    The `isEmpty` getter, as written: it answers TRUE when something is
    committed or queued for addition (the name says the opposite), and it
    ignores pending removals.
   */
  function IsEmpty<T>(s: SafeArray<T>): (b: bool)
    ensures b <==> s.committed != [] || s.addQueue != []
  {
    |s.addQueue| + |s.committed| > 0
  }

  /** `add(e)`: only the add queue changes; the committed sequence is untouched. */
  function Add<T>(s: SafeArray<T>, e: T): (r: SafeArray<T>)
    ensures r.committed == s.committed && r.removeQueue == s.removeQueue
    ensures |r.addQueue| == |s.addQueue| + 1 && r.addQueue[..|s.addQueue|] == s.addQueue && r.addQueue[|s.addQueue|] == e
  {
    s.(addQueue := s.addQueue + [e])
  }

  /** `remove(e)`: only the remove set changes; the committed sequence is untouched. */
  function Remove<T>(s: SafeArray<T>, e: T): (r: SafeArray<T>)
    ensures r.committed == s.committed && r.addQueue == s.addQueue
    ensures r.removeQueue == s.removeQueue + {e}
  {
    s.(removeQueue := s.removeQueue + {e})
  }

  /** `_addQueued`: append the queued additions after the committed ones, in request order. */
  function AddQueued<T>(s: SafeArray<T>): (r: SafeArray<T>)
    ensures r.committed == s.committed + s.addQueue
    ensures r.addQueue == [] && r.removeQueue == s.removeQueue
  {
    if |s.addQueue| > 0 then SafeArray(s.committed + s.addQueue, [], s.removeQueue)
    else s
  }

  /** `_removeQueued`: filter the queued removals out of the committed sequence and clear them. */
  function RemoveQueued<T(==)>(s: SafeArray<T>): (r: SafeArray<T>)
    ensures r.committed == Without(s.committed, s.removeQueue)
    ensures r.removeQueue == {} && r.addQueue == s.addQueue
  {
    if |s.removeQueue| > 0 then SafeArray(Without(s.committed, s.removeQueue), s.addQueue, {})
    else
      WithoutNothing(s.committed);
      s
  }

  /** The additions requested by the visits of `vs`, concatenated in visit order. */
  function AddsOf<T>(visit: T -> Requests<T>, vs: seq<T>): seq<T>
    decreases |vs|
  {
    if |vs| == 0 then [] else visit(vs[0]).adds + AddsOf(visit, vs[1..])
  }

  /** The removals requested by the visits of `vs`. */
  function RemovesOf<T>(visit: T -> Requests<T>, vs: seq<T>): set<T>
    decreases |vs|
  {
    if |vs| == 0 then {} else visit(vs[0]).removes + RemovesOf(visit, vs[1..])
  }

  lemma {:induction false} RemovesOfAppend<T>(visit: T -> Requests<T>, a: seq<T>, b: seq<T>)
    ensures RemovesOf(visit, a + b) == RemovesOf(visit, a) + RemovesOf(visit, b)
    decreases |a|
  {
    if |a| == 0 {
      assert a + b == b;
    } else {
      assert (a + b)[1..] == a[1..] + b;
      RemovesOfAppend(visit, a[1..], b);
    }
  }


  /** An element no visit asks to remove is not among the requested removals. */
  lemma {:induction false} NotRequestedNotRemoved<T>(visit: T -> Requests<T>, vs: seq<T>, x: T)
    requires forall y :: x !in visit(y).removes
    ensures x !in RemovesOf(visit, vs)
    decreases |vs|
  {
    if |vs| != 0 {
      NotRequestedNotRemoved(visit, vs[1..], x);
    }
  }

  /**
    The loop of `forEach` over the committed sequence `items`: an element is
    visited unless it is in the remove queue at the moment it is reached;
    each visit's requests go to the queues, never into `items`.
   */
  function Walk<T(==)>(items: seq<T>, visit: T -> Requests<T>, addQueue: seq<T>, removeQueue: set<T>): (w: Walked<T>)
    ensures w.addQueue == addQueue + AddsOf(visit, w.visited)
    ensures w.removeQueue == removeQueue + RemovesOf(visit, w.visited)
    ensures IsSubseq(w.visited, items)
    decreases |items|
  {
    if |items| == 0 then Walked([], addQueue, removeQueue)
    else if items[0] in removeQueue then Walk(items[1..], visit, addQueue, removeQueue)
    else
      var req := visit(items[0]);
      var rest := Walk(items[1..], visit, addQueue + req.adds, removeQueue + req.removes);
      var visited := [items[0]] + rest.visited;
      assert visited[1..] == rest.visited;
      Walked(visited, rest.addQueue, rest.removeQueue)
  }

  /** `forEach(fn)`: commit adds, drop removals, walk, drop the removals queued during the walk. */
  function ForEach<T(==)>(s: SafeArray<T>, visit: T -> Requests<T>): (r: PassResult<T>)
    ensures r.state.removeQueue == {}
    ensures r.state.addQueue == AddsOf(visit, r.visited)
    ensures r.state.committed == Without(Without(s.committed + s.addQueue, s.removeQueue), RemovesOf(visit, r.visited))
    ensures IsSubseq(r.visited, Without(s.committed + s.addQueue, s.removeQueue))
  {
    var start := RemoveQueued(AddQueued(s));
    var w := Walk(start.committed, visit, start.addQueue, start.removeQueue);
    var after := RemoveQueued(SafeArray(start.committed, w.addQueue, w.removeQueue));
    PassResult(after, w.visited)
  }

  /**
    The same protocol written as the source's steps; it computes exactly
    what `ForEach` computes.
   */
  method RunForEach<T(==)>(s: SafeArray<T>, visit: T -> Requests<T>) returns (r: SafeArray<T>, visited: seq<T>)
    ensures PassResult(r, visited) == ForEach(s, visit)
  {
    var start := RemoveQueued(AddQueued(s));
    var w := RunWalk(start.committed, visit, start.addQueue, start.removeQueue);
    r := RemoveQueued(SafeArray(start.committed, w.addQueue, w.removeQueue));
    visited := w.visited;
  }

  /**
    The `for...of` loop of `forEach` over an index into the committed
    sequence: skip what is queued for removal, otherwise visit and queue the
    visit's requests. It computes exactly what `Walk` computes.
   */
  method RunWalk<T(==)>(items: seq<T>, visit: T -> Requests<T>, addQueue0: seq<T>, removeQueue0: set<T>) returns (w: Walked<T>)
    ensures w == Walk(items, visit, addQueue0, removeQueue0)
  {
    var addQueue := addQueue0;
    var removeQueue := removeQueue0;
    var visited := [];
    var i := 0;
    while i < |items|
      invariant 0 <= i <= |items|
      invariant var w := Walk(items[i..], visit, addQueue, removeQueue);
        Walk(items, visit, addQueue0, removeQueue0)
          == Walked(visited + w.visited, w.addQueue, w.removeQueue)
    {
      var element := items[i];
      WalkUnfold(items, i, visit, addQueue, removeQueue);
      if element !in removeQueue {
        var req := visit(element);
        addQueue := addQueue + req.adds;
        removeQueue := removeQueue + req.removes;
        ghost var rest := Walk(items[i + 1..], visit, addQueue, removeQueue);
        assert visited + ([element] + rest.visited) == (visited + [element]) + rest.visited;
        visited := visited + [element];
      }
      i := i + 1;
    }
    assert items[i..] == [];
    w := Walked(visited, addQueue, removeQueue);
  }

  /** One step of the walk, at index `i` of the committed sequence. */
  lemma WalkUnfold<T>(items: seq<T>, i: int, visit: T -> Requests<T>, addQueue: seq<T>, removeQueue: set<T>)
    requires 0 <= i < |items|
    ensures items[i] in removeQueue ==>
      Walk(items[i..], visit, addQueue, removeQueue) == Walk(items[i + 1..], visit, addQueue, removeQueue)
    ensures items[i] !in removeQueue ==>
      var req := visit(items[i]);
      var rest := Walk(items[i + 1..], visit, addQueue + req.adds, removeQueue + req.removes);
      Walk(items[i..], visit, addQueue, removeQueue) == Walked([items[i]] + rest.visited, rest.addQueue, rest.removeQueue)
  {
    assert items[i..][0] == items[i];
    assert items[i..][1..] == items[i + 1..];
  }

  // ---------------------------------------------------------------------
  // Properties of the walk
  // ---------------------------------------------------------------------

  /**
    Each element of `visited` was, at the moment it was reached, neither in
    `removeQueue` nor removed by the visit of an element before it.
   */
  ghost predicate SkipsRemoved<T>(visit: T -> Requests<T>, visited: seq<T>, removeQueue: set<T>) {
    forall j :: 0 <= j < |visited| ==> visited[j] !in removeQueue + RemovesOf(visit, visited[..j])
  }

  /** The walk visits nothing that was queued for removal at the moment it was reached. */
  lemma {:induction false} WalkSkipsRemoved<T>(items: seq<T>, visit: T -> Requests<T>, addQueue: seq<T>, removeQueue: set<T>)
    ensures SkipsRemoved(visit, Walk(items, visit, addQueue, removeQueue).visited, removeQueue)
    decreases |items|
  {
    if |items| != 0 {
      var x := items[0];
      if x in removeQueue {
        WalkSkipsRemoved(items[1..], visit, addQueue, removeQueue);
      } else {
        var req := visit(x);
        var rq' := removeQueue + req.removes;
        WalkSkipsRemoved(items[1..], visit, addQueue + req.adds, rq');
        var rest := Walk(items[1..], visit, addQueue + req.adds, rq');
        var v := [x] + rest.visited;
        assert Walk(items, visit, addQueue, removeQueue).visited == v;
        assert [x][1..] == [];
        assert RemovesOf(visit, [x]) == req.removes;
        forall j | 0 <= j < |v|
          ensures v[j] !in removeQueue + RemovesOf(visit, v[..j])
        {
          if j == 0 {
            assert v[..0] == [];
          } else {
            assert v[..j] == [x] + rest.visited[..j - 1];
            RemovesOfAppend(visit, [x], rest.visited[..j - 1]);
            assert v[j] == rest.visited[j - 1];
            assert rest.visited[j - 1] !in rq' + RemovesOf(visit, rest.visited[..j - 1]);
          }
        }
      }
    }
  }

  /** Every element of `items` that nobody removed, before or during the walk, is visited. */
  lemma {:induction false} WalkVisitsSurvivors<T>(items: seq<T>, visit: T -> Requests<T>, addQueue: seq<T>, removeQueue: set<T>)
    ensures var w := Walk(items, visit, addQueue, removeQueue);
      forall x :: x in items && x !in w.removeQueue ==> x in w.visited
    decreases |items|
  {
    if |items| != 0 {
      var x := items[0];
      var w := Walk(items, visit, addQueue, removeQueue);
      assert forall y :: y in items ==> y == x || y in items[1..];
      if x in removeQueue {
        WalkVisitsSurvivors(items[1..], visit, addQueue, removeQueue);
      } else {
        var req := visit(x);
        WalkVisitsSurvivors(items[1..], visit, addQueue + req.adds, removeQueue + req.removes);
      }
    }
  }

  /** With nothing removed before or during the walk, every element is visited exactly once, in order. */
  lemma {:induction false} WalkVisitsAll<T>(items: seq<T>, visit: T -> Requests<T>, addQueue: seq<T>, removeQueue: set<T>)
    requires forall i :: 0 <= i < |items| ==> items[i] !in removeQueue
    requires forall i, j :: 0 <= i < |items| && 0 <= j < |items| ==> items[i] !in visit(items[j]).removes
    ensures Walk(items, visit, addQueue, removeQueue).visited == items
    decreases |items|
  {
    if |items| != 0 {
      var req := visit(items[0]);
      assert forall i :: 0 <= i < |items[1..]| ==> items[1..][i] == items[i + 1];
      WalkVisitsAll(items[1..], visit, addQueue + req.adds, removeQueue + req.removes);
      assert items == [items[0]] + items[1..];
    }
  }

  /** Walking `a + b` is walking `a`, then walking `b` from the queues `a` left behind. */
  lemma {:induction false} WalkSplit<T>(a: seq<T>, b: seq<T>, visit: T -> Requests<T>, addQueue: seq<T>, removeQueue: set<T>)
    ensures var w1 := Walk(a, visit, addQueue, removeQueue);
      var w2 := Walk(b, visit, w1.addQueue, w1.removeQueue);
      Walk(a + b, visit, addQueue, removeQueue) == Walked(w1.visited + w2.visited, w2.addQueue, w2.removeQueue)
    decreases |a|
  {
    if |a| == 0 {
      assert a + b == b;
    } else {
      var x := a[0];
      assert (a + b)[1..] == a[1..] + b;
      assert (a + b)[0] == x;
      if x in removeQueue {
        WalkSplit(a[1..], b, visit, addQueue, removeQueue);
        assert Walk(a, visit, addQueue, removeQueue) == Walk(a[1..], visit, addQueue, removeQueue);
        assert Walk(a + b, visit, addQueue, removeQueue) == Walk(a[1..] + b, visit, addQueue, removeQueue);
      } else {
        var req := visit(x);
        var aq, rq := addQueue + req.adds, removeQueue + req.removes;
        WalkSplit(a[1..], b, visit, aq, rq);
        var r1 := Walk(a[1..], visit, aq, rq);
        var w2 := Walk(b, visit, r1.addQueue, r1.removeQueue);
        var rab := Walk(a[1..] + b, visit, aq, rq);
        assert Walk(a, visit, addQueue, removeQueue) == Walked([x] + r1.visited, r1.addQueue, r1.removeQueue);
        assert Walk(a + b, visit, addQueue, removeQueue) == Walked([x] + rab.visited, rab.addQueue, rab.removeQueue);
        assert rab.visited == r1.visited + w2.visited;
        assert [x] + (r1.visited + w2.visited) == ([x] + r1.visited) + w2.visited;
      }
    }
  }

  /**
    Position by position: the element at index `i` is visited exactly when
    it is not in the remove queue left by the walk of the elements before it.
   */
  lemma WalkStepAt<T>(items: seq<T>, visit: T -> Requests<T>, addQueue: seq<T>, removeQueue: set<T>, i: nat)
    requires i < |items|
    ensures var before := Walk(items[..i], visit, addQueue, removeQueue);
      Walk(items[..i + 1], visit, addQueue, removeQueue).visited
        == before.visited + (if items[i] in before.removeQueue then [] else [items[i]])
  {
    assert items[..i + 1] == items[..i] + [items[i]];
    WalkSplit(items[..i], [items[i]], visit, addQueue, removeQueue);
  }

  /** The walk of a prefix is a prefix of the walk: later elements cannot change what was visited earlier. */
  lemma WalkPrefix<T>(items: seq<T>, visit: T -> Requests<T>, addQueue: seq<T>, removeQueue: set<T>, i: nat)
    requires i <= |items|
    ensures var w := Walk(items, visit, addQueue, removeQueue);
      var before := Walk(items[..i], visit, addQueue, removeQueue);
      |before.visited| <= |w.visited| && w.visited[..|before.visited|] == before.visited
  {
    assert items == items[..i] + items[i..];
    WalkSplit(items[..i], items[i..], visit, addQueue, removeQueue);
  }

  // ---------------------------------------------------------------------
  // Properties of one forEach pass
  // ---------------------------------------------------------------------

  /** Steps 1 and 2 of `forEach`: the walked sequence is the old committed sequence, then the add queue, minus the pre-pass removals; the walk starts with an empty remove set. */
  lemma ForEachCommitted<T>(s: SafeArray<T>)
    ensures RemoveQueued(AddQueued(s)) == SafeArray(Without(s.committed + s.addQueue, s.removeQueue), [], {})
  {
  }

  /**
    Removed elements are skipped: an element is never visited when it was
    queued for removal before the pass, nor when an earlier visit of the same
    pass asked to remove it.
   */
  lemma ForEachSkipsRemoved<T>(s: SafeArray<T>, visit: T -> Requests<T>)
    ensures var r := ForEach(s, visit);
      forall j :: 0 <= j < |r.visited| ==>
        r.visited[j] !in s.removeQueue && r.visited[j] !in RemovesOf(visit, r.visited[..j])
  {
    var r := ForEach(s, visit);
    var start := RemoveQueued(AddQueued(s));
    var w := Walk(start.committed, visit, start.addQueue, start.removeQueue);
    assert r.visited == w.visited;
    WalkSkipsRemoved(start.committed, visit, start.addQueue, start.removeQueue);
    SubseqMembers(w.visited, start.committed);
    forall j | 0 <= j < |w.visited|
      ensures w.visited[j] !in s.removeQueue && w.visited[j] !in RemovesOf(visit, w.visited[..j])
    {
      assert w.visited[j] in w.visited;
      assert w.visited[j] !in start.removeQueue + RemovesOf(visit, w.visited[..j]);
    }
  }

  /**
    Additions requested during a pass are not visited in that pass (unless
    the element was already committed); they wait in the add queue and are
    the tail of the sequence committed by the next pass.
   */
  lemma ForEachDefersAdds<T>(s: SafeArray<T>, visit: T -> Requests<T>, x: T)
    requires x !in s.committed && x !in s.addQueue
    ensures var r := ForEach(s, visit);
      x !in r.visited
      && (x in AddsOf(visit, r.visited) ==> x in r.state.addQueue && x !in r.state.committed)
      && AddQueued(r.state).committed == r.state.committed + AddsOf(visit, r.visited)
  {
    var r := ForEach(s, visit);
    var c := Without(s.committed + s.addQueue, s.removeQueue);
    SubseqMembers(r.visited, c);
  }

  /**
    An element added during a pass is visited in the next pass, provided no
    visit of that next pass asks to remove it.
   */
  lemma NextPassVisitsDeferredAdd<T>(s: SafeArray<T>, visit: T -> Requests<T>, next: T -> Requests<T>, x: T)
    requires x in AddsOf(visit, ForEach(s, visit).visited)
    requires forall y :: x !in next(y).removes
    ensures x in ForEach(ForEach(s, visit).state, next).visited
  {
    var s1 := ForEach(s, visit).state;
    var start := RemoveQueued(AddQueued(s1));
    WithoutNothing(s1.committed + s1.addQueue);
    assert x in start.committed;
    WalkVisitsSurvivors(start.committed, visit, start.addQueue, start.removeQueue);
    var w := Walk(start.committed, next, start.addQueue, start.removeQueue);
    WalkVisitsSurvivors(start.committed, next, start.addQueue, start.removeQueue);
    NotRequestedNotRemoved(next, w.visited, x);
  }

  /**
    The elements a pass visits are exactly the committed ones (old items, then
    add queue, minus pre-pass removals) in order, except those removed by an
    earlier visit; an element nobody removes is always visited.
   */
  lemma ForEachVisitsSurvivors<T>(s: SafeArray<T>, visit: T -> Requests<T>, x: T)
    ensures var r := ForEach(s, visit);
      (x in r.visited ==> (x in s.committed || x in s.addQueue) && x !in s.removeQueue)
      && ((x in s.committed || x in s.addQueue) && x !in s.removeQueue && x !in RemovesOf(visit, r.visited) ==> x in r.visited)
  {
    var r := ForEach(s, visit);
    var start := RemoveQueued(AddQueued(s));
    SubseqMembers(r.visited, start.committed);
    WalkVisitsSurvivors(start.committed, visit, start.addQueue, start.removeQueue);
  }

  /**
    When nothing is queued for removal and no visit removes anything that is
    committed, every committed element is visited exactly once in commit
    order, and the pass leaves the committed sequence at the old one followed by add queue.
   */
  lemma ForEachVisitsAllInOrder<T>(s: SafeArray<T>, visit: T -> Requests<T>)
    requires forall y :: y in s.committed + s.addQueue ==> y !in s.removeQueue
    requires forall y, z :: y in s.committed + s.addQueue && z in s.committed + s.addQueue ==> y !in visit(z).removes
    ensures ForEach(s, visit).visited == s.committed + s.addQueue
    ensures ForEach(s, visit).state.committed == s.committed + s.addQueue
  {
    var all := s.committed + s.addQueue;
    var start := RemoveQueued(AddQueued(s));
    WithoutNothing(all);
    assert Without(all, s.removeQueue) == Without(all, {}) by {
      WithoutSameOn(all, s.removeQueue, {});
    }
    WalkVisitsAll(all, visit, [], {});
    var r := ForEach(s, visit);
    NoneRemoved(visit, all, all);
    WithoutSameOn(all, RemovesOf(visit, all), {});
  }

  lemma {:induction false} NoneRemoved<T>(visit: T -> Requests<T>, vs: seq<T>, items: seq<T>)
    requires forall y, z :: y in items && z in vs ==> y !in visit(z).removes
    ensures forall y :: y in items ==> y !in RemovesOf(visit, vs)
    decreases |vs|
  {
    if |vs| != 0 {
      NoneRemoved(visit, vs[1..], items);
    }
  }

  /** Filtering by two sets that agree on the elements of `xs` gives the same result. */
  lemma {:induction false} WithoutSameOn<T>(xs: seq<T>, a: set<T>, b: set<T>)
    requires forall y :: y in xs ==> (y in a <==> y in b)
    ensures Without(xs, a) == Without(xs, b)
    decreases |xs|
  {
    if |xs| != 0 {
      assert forall y :: y in xs[1..] ==> y in xs;
      WithoutSameOn(xs[1..], a, b);
    }
  }

  /**
    After a pass nothing that was queued for removal, before or during the
    pass, is left in the committed sequence, and the remove set is empty; everything else
    that was committed is still there.
   */
  lemma ForEachDropsRemoved<T>(s: SafeArray<T>, visit: T -> Requests<T>, x: T)
    ensures var r := ForEach(s, visit);
      r.state.removeQueue == {}
      && (x in r.state.committed <==>
          (x in s.committed || x in s.addQueue) && x !in s.removeQueue && x !in RemovesOf(visit, r.visited))
  {
  }

  /** The final array is one filter of (array ++ add queue) by all removals of the pass. */
  lemma ForEachFinalArray<T>(s: SafeArray<T>, visit: T -> Requests<T>)
    ensures var r := ForEach(s, visit);
      r.state.committed == Without(s.committed + s.addQueue, s.removeQueue + RemovesOf(visit, r.visited))
  {
    var r := ForEach(s, visit);
    WithoutTwice(s.committed + s.addQueue, s.removeQueue, RemovesOf(visit, r.visited));
  }

  /** A pass never introduces duplicates into the committed array. */
  lemma ForEachKeepsNoDup<T>(s: SafeArray<T>, visit: T -> Requests<T>)
    requires NoDup(s.committed + s.addQueue)
    ensures NoDup(ForEach(s, visit).state.committed)
  {
    var r := ForEach(s, visit);
    WithoutKeepsNoDup(s.committed + s.addQueue, s.removeQueue);
    WithoutKeepsNoDup(Without(s.committed + s.addQueue, s.removeQueue), RemovesOf(visit, r.visited));
  }

  // ---------------------------------------------------------------------
  // The isEmpty quirk
  // ---------------------------------------------------------------------

  /**
    `isEmpty` is the negation of its name: false on a fresh container, true
    right after an add, and blind to pending removals.
   */
  lemma IsEmptyIsInverted<T>(s: SafeArray<T>, e: T)
    ensures !IsEmpty(Empty<T>())
    ensures IsEmpty(Add(s, e))
    ensures IsEmpty(Remove(s, e)) == IsEmpty(s)
  {
  }

  /** `isEmpty` answers true even when every element is queued for removal. */
  lemma IsEmptyIgnoresPendingRemovals()
    ensures var s := Remove(Add(Empty<int>(), 7), 7);
      IsEmpty(s) && Without(s.committed + s.addQueue, s.removeQueue) == []
  {
    var s := Remove(Add(Empty<int>(), 7), 7);
    assert s.committed + s.addQueue == [7];
  }

  /**
    An element added and then removed within the same pass survives it: the
    removal is cleared at the end of the pass while the add stays queued, so
    the element is committed and visited on the next pass.
   */
  lemma AddThenRemoveInOnePassSurvives()
    ensures var visit := (x: int) => if x == 1 then Requests([2], {2}) else Requests([], {});
      var idle := (x: int) => Requests([], {});
      var first := ForEach(SafeArray([1], [], {}), visit);
      var second := ForEach(first.state, idle);
      first.visited == [1] && first.state == SafeArray([1], [2], {})
      && second.visited == [1, 2]
  {
    var visit := (x: int) => if x == 1 then Requests([2], {2}) else Requests([], {});
    var idle := (x: int) => Requests([], {});
    var s0 := SafeArray([1], [], {});
    assert RemoveQueued(AddQueued(s0)) == s0;
    assert [1][1..] == [];
    var w := Walk([1], visit, [], {});
    assert w == Walked([1], [2], {2});
    assert Without([1], {2}) == [1];
    var first := ForEach(s0, visit);
    assert first.state == SafeArray([1], [2], {});
    var start := RemoveQueued(AddQueued(first.state));
    assert start == SafeArray([1, 2], [], {});
    assert [1, 2][1..] == [2];
    assert [2][1..] == [];
    assert Walk([1, 2], idle, [], {}).visited == [1, 2];
  }
}

=== FILE: seqs.dfy ===
/** Optional values: the model's stand-in for JavaScript's `undefined` result. */
module Options {

  datatype Option<+T> = None | Some(value: T)
}

/**
  Sequence helpers shared by the runtime model: the subsequence relation,
  filtering by a set (the `array.filter(e => !set.has(e))` idiom), absence of
  duplicates, and removal of the first occurrence of an element.
 */
module Seqs {

  /** `a` can be obtained from `b` by deleting elements (order kept). */
  predicate IsSubseq<T(==)>(a: seq<T>, b: seq<T>)
    decreases |b|
  {
    if |a| == 0 then true
    else if |b| == 0 then false
    else (a[0] == b[0] && IsSubseq(a[1..], b[1..])) || IsSubseq(a, b[1..])
  }

  lemma {:induction false} SubseqMembers<T>(a: seq<T>, b: seq<T>)
    requires IsSubseq(a, b)
    ensures forall x :: x in a ==> x in b
    decreases |b|
  {
    if |a| != 0 {
      if a[0] == b[0] && IsSubseq(a[1..], b[1..]) {
        SubseqMembers(a[1..], b[1..]);
        assert forall x :: x in a ==> x == a[0] || x in a[1..];
      } else {
        SubseqMembers(a, b[1..]);
      }
    }
  }

  lemma {:induction false} SubseqLength<T>(a: seq<T>, b: seq<T>)
    requires IsSubseq(a, b)
    ensures |a| <= |b|
    decreases |b|
  {
    if |a| != 0 {
      if a[0] == b[0] && IsSubseq(a[1..], b[1..]) {
        SubseqLength(a[1..], b[1..]);
      } else {
        SubseqLength(a, b[1..]);
      }
    }
  }

  lemma {:induction false} SubseqReflexive<T>(a: seq<T>)
    ensures IsSubseq(a, a)
    decreases |a|
  {
    if |a| != 0 {
      SubseqReflexive(a[1..]);
    }
  }

  /** Subsequence is transitive. */
  lemma {:induction false} SubseqTrans<T>(a: seq<T>, b: seq<T>, c: seq<T>)
    requires IsSubseq(a, b) && IsSubseq(b, c)
    ensures IsSubseq(a, c)
    decreases |c|
  {
    if |a| != 0 {
      if IsSubseq(b, c[1..]) {
        SubseqTrans(a, b, c[1..]);
      } else if a[0] == b[0] && IsSubseq(a[1..], b[1..]) {
        SubseqTrans(a[1..], b[1..], c[1..]);
      } else {
        SubseqTrans(a, b[1..], c[1..]);
      }
    }
  }

  /** Dropping the first `k` elements of both sides keeps the relation: the embedding never moves an element left. */
  lemma {:induction false} SubseqDrop<T>(a: seq<T>, b: seq<T>, k: nat)
    requires IsSubseq(a, b) && k <= |a|
    ensures k <= |b| && IsSubseq(a[k..], b[k..])
    decreases |b|
  {
    SubseqLength(a, b);
    if k == 0 {
      assert a[0..] == a && b[0..] == b;
    } else if a[0] == b[0] && IsSubseq(a[1..], b[1..]) {
      SubseqDrop(a[1..], b[1..], k - 1);
      assert a[1..][k - 1..] == a[k..] && b[1..][k - 1..] == b[k..];
    } else {
      SubseqDrop(a, b[1..], k);
      SubseqLength(a, b[1..]);
      assert b[1..][k..] == b[k..][1..];
      SubseqSkipHead(a[k..], b[k..]);
    }
  }

  lemma SubseqSkipHead<T>(a: seq<T>, b: seq<T>)
    requires |b| > 0 && IsSubseq(a, b[1..])
    ensures IsSubseq(a, b)
  {
  }

  /**
    `xs` with every element of `drop` filtered out, order kept: each element
    outside `drop` keeps all its copies, each element of `drop` loses all.
   */
  function Without<T(==)>(xs: seq<T>, drop: set<T>): (r: seq<T>)
    ensures forall x :: x in r ==> x in xs && x !in drop
    ensures forall x :: x in xs && x !in drop ==> x in r
    ensures forall x {:trigger multiset(r)[x]} :: x in xs ==> multiset(r)[x] == if x in drop then 0 else multiset(xs)[x]
    ensures IsSubseq(r, xs)
    decreases |xs|
  {
    if |xs| == 0 then []
    else
      var rest := Without(xs[1..], drop);
      assert xs == [xs[0]] + xs[1..];
      assert multiset(xs) == multiset{xs[0]} + multiset(xs[1..]);
      if xs[0] in drop then rest
      else
        assert ([xs[0]] + rest)[1..] == rest;
        assert multiset([xs[0]] + rest) == multiset{xs[0]} + multiset(rest);
        [xs[0]] + rest
  }

  /** Filtering by the empty set keeps everything. */
  lemma {:induction false} WithoutNothing<T>(xs: seq<T>)
    ensures Without(xs, {}) == xs
    decreases |xs|
  {
    if |xs| != 0 {
      WithoutNothing(xs[1..]);
      assert xs == [xs[0]] + xs[1..];
    }
  }

  /** Filtering twice is filtering once by the union. */
  lemma {:induction false} WithoutTwice<T>(xs: seq<T>, a: set<T>, b: set<T>)
    ensures Without(Without(xs, a), b) == Without(xs, a + b)
    decreases |xs|
  {
    if |xs| != 0 {
      WithoutTwice(xs[1..], a, b);
      if xs[0] !in a {
        assert Without(xs, a) == [xs[0]] + Without(xs[1..], a);
        assert Without(xs, a)[1..] == Without(xs[1..], a);
      }
    }
  }


  predicate NoDup<T(==)>(xs: seq<T>) {
    forall i, j :: 0 <= i < j < |xs| ==> xs[i] != xs[j]
  }

  /** Filtering never introduces duplicates. */
  lemma {:induction false} WithoutKeepsNoDup<T>(xs: seq<T>, drop: set<T>)
    requires NoDup(xs)
    ensures NoDup(Without(xs, drop))
    decreases |xs|
  {
    if |xs| != 0 {
      assert NoDup(xs[1..]) by {
        forall i, j | 0 <= i < j < |xs[1..]|
          ensures xs[1..][i] != xs[1..][j]
        {
          assert xs[1..][i] == xs[i + 1] && xs[1..][j] == xs[j + 1];
        }
      }
      WithoutKeepsNoDup(xs[1..], drop);
      if xs[0] !in drop {
        var rest := Without(xs[1..], drop);
        assert xs[0] !in xs[1..] by {
          forall k | 0 <= k < |xs[1..]|
            ensures xs[1..][k] != xs[0]
          {
            assert xs[1..][k] == xs[k + 1];
          }
        }
        assert xs[0] !in rest;
        var r := [xs[0]] + rest;
        forall i, j | 0 <= i < j < |r|
          ensures r[i] != r[j]
        {
          if i == 0 {
            assert r[j] == rest[j - 1];
          } else {
            assert r[i] == rest[i - 1] && r[j] == rest[j - 1];
          }
        }
      }
    }
  }

  /**
    `Array.prototype.indexOf`: the index of the first occurrence of `x`,
    or -1 when `x` does not occur.
   */
  function IndexOf<T(==)>(xs: seq<T>, x: T): (i: int)
    ensures -1 <= i < |xs|
    ensures i == -1 <==> x !in xs
    ensures 0 <= i ==> xs[i] == x && x !in xs[..i]
    decreases |xs|
  {
    if |xs| == 0 then -1
    else if xs[0] == x then 0
    else
      var j := IndexOf(xs[1..], x);
      if j < 0 then -1
      else
        assert xs[..j + 1] == [xs[0]] + xs[1..][..j];
        j + 1
  }

  /**
    The `removeArrayElement` helper: splice out the first occurrence of
    `x`, or leave the array alone when `x` is absent.
   */
  function RemoveArrayElement<T(==)>(xs: seq<T>, x: T): (r: seq<T>)
    ensures x !in xs ==> r == xs
    ensures forall i :: 0 <= i < |xs| && xs[i] == x && x !in xs[..i] ==> r == xs[..i] + xs[i + 1..]
    ensures multiset(r) == multiset(xs) - multiset{x}
    ensures IsSubseq(r, xs)
  {
    var ndx := IndexOf(xs, x);
    if ndx >= 0 then
      var r := xs[..ndx] + xs[ndx + 1..];
      SpliceFacts(xs, x, ndx, r);
      r
    else
      SubseqReflexive(xs);
      assert multiset(xs)[x] == 0;
      xs
  }

  /** What splicing out the first occurrence, at index `k`, produces. */
  lemma SpliceFacts<T>(xs: seq<T>, x: T, k: int, r: seq<T>)
    requires 0 <= k < |xs| && xs[k] == x && x !in xs[..k]
    requires r == xs[..k] + xs[k + 1..]
    ensures forall i :: 0 <= i < |xs| && xs[i] == x && x !in xs[..i] ==> r == xs[..i] + xs[i + 1..]
    ensures multiset(r) == multiset(xs) - multiset{x}
    ensures IsSubseq(r, xs)
  {
    FirstIndexUnique(xs, x, k);
    assert xs == xs[..k] + [xs[k]] + xs[k + 1..];
    DropOneIsSubseq(xs, k);
  }

  lemma FirstIndexUnique<T>(xs: seq<T>, x: T, k: int)
    requires 0 <= k < |xs| && xs[k] == x && x !in xs[..k]
    ensures forall i :: 0 <= i < |xs| && xs[i] == x && x !in xs[..i] ==> i == k
  {
    forall j | 0 <= j < k
      ensures xs[j] != x
    {
      assert xs[j] == xs[..k][j];
    }
    forall i | k < i <= |xs|
      ensures x in xs[..i]
    {
      assert xs[..i][k] == x;
    }
  }

  lemma {:induction false} DropOneIsSubseq<T>(xs: seq<T>, k: int)
    requires 0 <= k < |xs|
    ensures IsSubseq(xs[..k] + xs[k + 1..], xs)
    decreases |xs|
  {
    if k == 0 {
      assert xs[..0] + xs[1..] == xs[1..];
      SubseqReflexive(xs[1..]);
    } else {
      DropOneIsSubseq(xs[1..], k - 1);
      var r := xs[..k] + xs[k + 1..];
      assert r[0] == xs[0];
      assert r[1..] == xs[1..][..k - 1] + xs[1..][k..];
    }
  }

  /** Positions of a sequence with index `k` spliced out. */
  lemma DropAtIndex<T>(xs: seq<T>, k: int, r: seq<T>)
    requires 0 <= k < |xs| && r == xs[..k] + xs[k + 1..]
    ensures |r| == |xs| - 1
    ensures forall i :: 0 <= i < k ==> r[i] == xs[i]
    ensures forall i :: k <= i < |xs| - 1 ==> r[i] == xs[i + 1]
  {
  }

  /** Removing one occurrence from a duplicate-free sequence removes the element entirely. */
  lemma RemoveArrayElementFromNoDup<T>(xs: seq<T>, x: T)
    requires NoDup(xs)
    ensures x !in RemoveArrayElement(xs, x)
    ensures NoDup(RemoveArrayElement(xs, x))
  {
    if x in xs {
      var k := IndexOf(xs, x);
      var r := xs[..k] + xs[k + 1..];
      assert RemoveArrayElement(xs, x) == r;
      DropAtIndex(xs, k, r);
      forall i | 0 <= i < |r|
        ensures r[i] != x
      {
        if i < k {
          assert r[i] == xs[i] && xs[k] == x;
        } else {
          assert r[i] == xs[i + 1] && xs[k] == x;
        }
      }
      forall i, j | 0 <= i < j < |r|
        ensures r[i] != r[j]
      {
        var i' := if i < k then i else i + 1;
        var j' := if j < k then j else j + 1;
        assert r[i] == xs[i'] && r[j] == xs[j'] && i' < j';
      }
    }
  }
}

=== FILE: skin_instance.dfy ===
/**
  The action bookkeeping of `SkinInstance.setAnimation`.

  The animation library is abstracted: a model's clips are a map from
  animation name to clip, and the mixer's `clipAction` is a deterministic
  function from clip to action identity (the same clip always yields the
  same action). The mixer's per-action state is kept in `mixer`.
 */
module Skins {

  type AnimName = string
  type ClipId = nat
  type ActionId = nat

  /** The part of an animation action `setAnimation` touches: `enabled`, the local time `reset()` zeroes, and whether `play()` was called. */
  datatype ActionState = ActionState(enabled: bool, time: real, playing: bool)

  /** `actions`: the skin's record of the action last used per animation name; `mixer`: the state of every action the skin touched. */
  datatype Skin = Skin(actions: map<AnimName, ActionId>, mixer: map<ActionId, ActionState>)

  /** The outcome of `setAnimation`: done, or a crash (an unknown animation name) after the disabling loop already ran. */
  datatype Outcome = Done(skin: Skin) | Crashed(skin: Skin)

  /** Every recorded action has a state. */
  predicate Valid(s: Skin) {
    forall n :: n in s.actions ==> s.actions[n] in s.mixer
  }

  /** A fresh skin: `this.actions = {}`. */
  function NewSkin(): (s: Skin)
    ensures Valid(s) && s.actions == map[]
  {
    Skin(map[], map[])
  }

  /** The loop over `Object.values(this.actions)`: every recorded action gets `enabled = false`. */
  function DisableRecorded(s: Skin): (r: Skin)
    ensures r.actions == s.actions && r.mixer.Keys == s.mixer.Keys
    ensures forall n :: n in r.actions && r.actions[n] in r.mixer ==> !r.mixer[r.actions[n]].enabled
    ensures forall id :: id in s.mixer && id !in s.actions.Values ==> r.mixer[id] == s.mixer[id]
    ensures forall id :: id in s.mixer ==> r.mixer[id].time == s.mixer[id].time && r.mixer[id].playing == s.mixer[id].playing
  {
    Skin(s.actions, map id | id in s.mixer ::
      if id in s.actions.Values then s.mixer[id].(enabled := false) else s.mixer[id])
  }

  /**
    `setAnimation(name)`: disable every recorded action, then fetch (or
    create) the action for the named clip, enable, reset and play it, and
    record it under `name`. An unknown name leaves the clip undefined and the
    mixer call fails, after the disabling loop.
   */
  function SetAnimation(s: Skin, name: AnimName, animations: map<AnimName, ClipId>, clipAction: ClipId -> ActionId): (r: Outcome)
    ensures name !in animations ==> r == Crashed(DisableRecorded(s))
    ensures name in animations ==>
      (&& r.Done?
       && r.skin.actions.Keys == s.actions.Keys + {name}
       && r.skin.actions[name] == clipAction(animations[name])
       && clipAction(animations[name]) in r.skin.mixer
       && r.skin.mixer[clipAction(animations[name])] == ActionState(true, 0.0, true)
       && (forall n :: n in s.actions && n != name ==> r.skin.actions[n] == s.actions[n]))
    ensures name in animations ==>
      (&& r.skin.mixer.Keys == s.mixer.Keys + {clipAction(animations[name])}
       && forall id :: id in s.mixer && id != clipAction(animations[name]) ==> r.skin.mixer[id] == DisableRecorded(s).mixer[id])
    ensures Valid(s) && name in animations ==> Valid(r.skin)
  {
    var off := DisableRecorded(s);
    if name !in animations then Crashed(off)
    else
      var action := clipAction(animations[name]);
      Done(Skin(off.actions[name := action], off.mixer[action := ActionState(true, 0.0, true)]))
  }

  /**
    After `setAnimation(name)` the action recorded for `name` is the only
    enabled recorded action: every other recorded action is disabled, unless
    it is the very same action object.
   */
  lemma SetAnimationEnablesOnlyTarget(s: Skin, name: AnimName, animations: map<AnimName, ClipId>, clipAction: ClipId -> ActionId)
    requires Valid(s) && name in animations
    ensures var r := SetAnimation(s, name, animations, clipAction).skin;
      forall n :: n in r.actions ==>
        (r.mixer[r.actions[n]].enabled <==> r.actions[n] == r.actions[name])
  {
    var off := DisableRecorded(s);
    var r := SetAnimation(s, name, animations, clipAction).skin;
    forall n | n in r.actions
      ensures r.mixer[r.actions[n]].enabled <==> r.actions[n] == r.actions[name]
    {
      if n != name {
        assert r.actions[n] == off.actions[n];
        assert off.actions[n] in off.mixer;
      }
    }
  }

  /**
    Calling `setAnimation` again with the same name reuses the same action
    and restarts it: the recorded actions are the same and the action's time
    is back at zero.
   */
  lemma SetAnimationReusesAction(s: Skin, name: AnimName, animations: map<AnimName, ClipId>, clipAction: ClipId -> ActionId, elapsed: real)
    requires Valid(s) && name in animations
    ensures var r1 := SetAnimation(s, name, animations, clipAction).skin;
      var a := r1.actions[name];
      var advanced := r1.(mixer := r1.mixer[a := r1.mixer[a].(time := elapsed)]);
      var r2 := SetAnimation(advanced, name, animations, clipAction).skin;
      r2.actions == r1.actions && r2.actions[name] == a && r2.mixer[a].time == 0.0
  {
  }
}
